=== FILE: README.md ===
# FCI state indexing in ffsim, in Dafny

This project models how ffsim lays out a fermionic state vector over the full
configuration-interaction (FCI) space, and proves properties of that layout. The
operations modelled are the ones that build basis states and name them:

- `dims` and `dim`: the sector dimensions are binomial coefficients. A spin pair
  multiplies them.
- Single-sector addressing. An occupation list becomes a bitmask, with orbital `i`
  occupied exactly when bit `i` is set. The mask's address is its rank among the
  masks of the same weight, in ascending numeric order. This is what `cistring.str2addr`
  and `cistring.addrs2str` compute.
- The combined index `addr_a * dim_b + addr_b` and its inverse `divmod`.
- `slater_determinant` without orbital rotation. This covers the `norb == 0` vacuum
  `[1]` and the rule that a flat list (or an empty one) is the alpha list with no beta
  orbitals. `hartree_fock_state` is modelled as well.
- The rank-1 `slater_determinant_rdm`, summed over spin or spin-resolved.
- `indices_to_strings` and `strings_to_indices`. Each string is the beta field followed
  by the alpha field, orbital 0 rightmost.
- The earlier module `python/ffsim/states.py`: `one_hot`, `slater_determinant` and
  `slater_determinant_one_rdm`.

Masks are unbounded naturals. `Bit` and `Popcount` are defined by recursion.
`Str2Addr` and `Addr2Str` recurse on the top orbital. `Str2Addr` is proved equal to
"the number of same-weight masks below", which fixes the order independently of how
the address is computed, and `Addr2Str` is proved to be its inverse in both directions. Text is `seq<char>`. `ParseBinary` models `int(s, 2)` on text made of '0' and '1'
only; the other spellings Python accepts are listed under "Left out". `FormatBinary` models `f"{x:0{w}b}"`. State vectors and
density matrices hold integers. Without a rotation every entry is 0, 1 or 2, and 2 occurs only in
the spin-summed density matrix, at an orbital listed in both sectors. So the complex
dtype plays no part.

Modules, one per file:

- `Combinatorics`: `math.comb`, factorials and powers of two.
- `Bitmask`: bits, popcount and counting masks.
- `CiString`: sector addressing.
- `BinaryText`: `int(s, 2)` and zero-padded binary formatting.
- `Occupation`: occupation lists and the masks built from them.
- `FciSpace`: dimensions and the combined index.
- `Arrays`: vectors, matrices, one-hot arrays, diagonal assignment and `block_diag`.
- `States`: determinants, the Hartree-Fock state and the density matrix.
- `Bitstrings`: index and string conversion.
- `LegacyStates`: the earlier module.
- `Wrappers`: the `Result` type and the failures it can carry.

The source never checks that orbitals are distinct, that an index is below `dim`, or
that a string has the right length and weight. An orbital at or above `norb` is not
checked either, but numpy then raises `IndexError`. All these conditions are
preconditions of the model. Where the source does branch, the model
returns an error value instead. This covers `int(s, 2)` on bad text, an unsupported
rank, and numpy refusing a float index array.

With `norb = 0` a rendered field is one digit wide, because `f"{0:00b}"` is `"0"` and
not empty. The spinless vacuum renders as `"0"` and reads back as index 0
(`Bitstrings.NoOrbitalsSpinless`). The spin-pair vacuum renders as `"00"`, but
`strings_to_indices` slices the beta field as the first zero characters, and `int("", 2)`
raises, so `"00"` does not read back (`Bitstrings.NoOrbitalsRendering`).

## Model

| member | source | states |
|---|---|---|
| `Combinatorics.BinomialFactorial` | python/ffsim/states/states.py:56-58 | The Pascal-recursive binomial is `math.comb`: C(n, k)·k!·(n−k)! = n! for k ≤ n, and C(n, k) = 0 for k > n. |
| `Bitmask.CountBelowPow2` | python/ffsim/states/states.py:46-60 | The number of weight-n masks below 2^k is C(k, n), so each sector dimension counts exactly that sector's determinants. |
| `CiString.Str2Addr` | python/ffsim/states/states.py:166-170 | `cistring.str2addr`: the address of a weight-n mask is below C(norb, n). Its partners `Str2AddrCountsSmallerMasks` (rank in ascending order) and `Addr2StrOfStr2Addr` (inverse) fix which address it is. |
| `CiString.Addr2Str` | python/ffsim/states/states.py:296-297 | `cistring.addrs2str`: every address below C(norb, n) names a mask of norb bits with n set. Its partner `Str2AddrOfAddr2Str` shows the mask's address is the address asked for. |
| `CiString.Str2AddrCountsSmallerMasks` | python/ffsim/states/states.py:165-166 | The address of a mask is the number of masks of the same weight numerically below it. |
| `CiString.Str2AddrIncreasing` | python/ffsim/states/states.py:165-166 | Addressing is strictly order-preserving, in both directions: m1 < m2 iff addr(m1) < addr(m2). |
| `CiString.Addr2StrOfStr2Addr` | python/ffsim/states/states.py:342-346 | Looking up the mask at a mask's address gives the mask back. |
| `CiString.Str2AddrOfAddr2Str` | python/ffsim/states/states.py:295-297 | Every address below C(norb, n) names a mask whose address is that address. Addressing is a bijection onto the range. |
| `CiString.LowestMaskHasAddressZero` | python/ffsim/states/states.py:193-197 | The mask with orbitals 0..n−1 occupied, 2^n − 1, has address 0, and address 0 holds it. |
| `CiString.ThreeOrbitalsTwoParticles` | python/ffsim/states/states.py:279-287 | With three orbitals the alpha masks 011, 101 and 110 get addresses 0, 1 and 2. |
| `BinaryText.ParseBinary` | python/ffsim/states/states.py:342-343 | `int(s, 2)` succeeds iff s is nonempty and all '0'/'1'. Otherwise it fails with the text. On success: bit i is set iff the i-th character from the right is '1', the value is below 2^len, the popcount is the number of '1's, and rendering at width len gives s back. |
| `BinaryText.FormatBinary` | python/ffsim/states/states.py:291 | `f"{x:0{w}b}"` is the w-character fixed-width text of x when x fits, and `int(., 2)` reads it back as x. At width 0 it is "0". |
| `Occupation.OccupationMask` | python/ffsim/states/states.py:163-165 | The integer read from the reversed occupation bits is a mask of weight len(orbs) with bit i set iff orbital i is listed. |
| `Occupation.LowestOrbitalsMask` | python/ffsim/states/states.py:193-197 | Occupying `range(n)` gives the mask 2^n − 1. |
| `FciSpace.Dims` | python/ffsim/states/states.py:46-60 | Each component of `dims` is the number of masks of that weight over norb orbitals. |
| `FciSpace.Dim` | python/ffsim/states/states.py:63-78 | `dim` is the product of the two sector counts for a pair, and the single count for an integer. |
| `FciSpace.SpinlessIsAlphaOnly` | python/ffsim/states/states.py:75-78 | A spinless count n spans the same dimension as n alpha and no beta particles. |
| `FciSpace.NoOrbitals` | python/ffsim/states/states.py:75-78 | With no orbitals the dimension is 1 for no particles and 0 otherwise. |
| `FciSpace.SplitCombinedIndex` | python/ffsim/states/states.py:294-295 | `addr_a * dim_b + addr_b` lies below dim_a·dim_b, and `divmod` by dim_b returns (addr_a, addr_b). |
| `FciSpace.CombineSplitIndex` | python/ffsim/states/states.py:347 | Every index below dim_a·dim_b splits into in-range addresses that recombine to it. |
| `Arrays.OneHot` | python/ffsim/states/states.py:85-97 | `one_hot(n, index)` has length n, a 1 at index and 0 everywhere else. |
| `Arrays.OneHotMatrix` | python/ffsim/states.py:20-24 | `one_hot((rows, cols), (i, j))` is a rows×cols matrix with a single 1 at (i, j). |
| `Arrays.FlattenOneHotMatrix` | python/ffsim/states/states.py:171-173 | `reshape(-1)` of the 2-D one-hot array is the 1-D one-hot vector at i·cols + j. |
| `Arrays.SetDiagonal` | python/ffsim/states/states.py:241-244 | `m[(idx, idx)] = 1` sets exactly the listed diagonal entries to 1 and leaves every other entry unchanged. |
| `Arrays.Add` | python/ffsim/states/states.py:255-256 | `rdm_a + rdm_b`, built row by row, has entry (p, q) equal to the sum of the two entries. Its partners `DiagonalOfAdd` and `TraceOfAdd` relate its diagonal and trace to those of the summands. |
| `Arrays.DiagonalOfAdd` | python/ffsim/states/states.py:255-256 | The diagonal of `a + b` is the entry-wise sum of the two diagonals. |
| `Arrays.TraceOfAdd` | python/ffsim/states/states.py:255-256 | The trace of `a + b` is the sum of the two traces. |
| `Arrays.BlockDiag` | python/ffsim/states/states.py:257 | `block_diag(a, b)`, assembled as the rows of a padded right with zeros and then the rows of b padded left, has a in the top-left block, b in the bottom-right block and zeros elsewhere. Its partners `DiagonalOfBlockDiag` and `TraceOfBlockDiag` relate it to the blocks. |
| `Arrays.DiagonalOfBlockDiag` | python/ffsim/states/states.py:257 | The diagonal of `block_diag(a, b)` is a's diagonal followed by b's. |
| `Arrays.TraceOfBlockDiag` | python/ffsim/states/states.py:257 | The trace of `block_diag(a, b)` is the sum of the two blocks' traces. |
| `States.SectorAddress` | python/ffsim/states/states.py:161-170 | A sector's address is below C(norb, n), and the mask at that address is the occupation mask of the list. |
| `States.SlaterDeterminant` | python/ffsim/states/states.py:150-173 | With no orbitals the result is [1]. Otherwise it has length `dim(norb, (len(alpha), len(beta)))`, entries 0 or 1 summing to 1, and a flat list is alpha only. |
| `States.SlaterDeterminantIndex` | python/ffsim/states/states.py:171-173 | The determinant is the one-hot vector at `addr_a * dim_b + addr_b`. |
| `States.SlaterDeterminantDecodes` | python/ffsim/states/states.py:159-173 | Entry k is 1 iff index k decodes, via `divmod` and `addrs2str`, to the alpha and beta masks of the given occupations. |
| `States.HartreeFockState` | python/ffsim/states/states.py:181-197 | The Hartree-Fock state is the one-hot vector at index 0 of the FCI space, for a pair or an integer count. |
| `States.LowestOccupationAtZero` | python/ffsim/states/states.py:193-197 | Occupying `range(n_alpha)` and `range(n_beta)` gives a valid determinant whose 1 sits at index 0. |
| `States.SectorRdm` | python/ffsim/states/states.py:237-244 | A sector's matrix is norb×norb, with diagonal entry p equal to 1 iff p is listed and 0 off the diagonal. The empty list is skipped, with the same result. |
| `States.SlaterDeterminantRdm` | python/ffsim/states/states.py:236-260 | Any rank other than 1 fails with that rank. Rank 1, spin-summed: a norb×norb diagonal of alpha plus beta occupations. Rank 1, spin-resolved: a 2norb×2norb diagonal, alpha orbitals first. |
| `States.SectorRdmTrace` | python/ffsim/states/states.py:237-244 | One sector's matrix has the occupation numbers on its diagonal, and for a duplicate-free list its trace is the list's length. |
| `States.RdmTrace` | python/ffsim/states/states.py:236-257 | For duplicate-free occupations the rank-1 matrix has trace `len(alpha) + len(beta)` in both modes. |
| `Bitstrings.IndicesToStrings` | python/ffsim/states/states.py:289-301 | There is one string per index. Each is binary text of the shape `strings_to_indices` reads: two fields of weight n_beta then n_alpha, or one field for an integer count. A field is norb characters wide, or one character when norb = 0. |
| `Bitstrings.IndexString` | python/ffsim/states/states.py:289-301 | The text of one index: '0'/'1' text of the shape `strings_to_indices` reads, a beta field of weight n_beta then an alpha field of weight n_alpha, or one field of weight n. Each field is norb characters wide, or one when norb = 0. Its partner `IndexStringFields` parses each field back to the mask at that field's address. |
| `Bitstrings.IndexStringFields` | python/ffsim/states/states.py:293-301 | Each field of an index's string parses back to the mask at that field's address: the whole string for an integer count, and `s[norb:]` for alpha and `s[:norb]` for beta when norb ≥ 1 (at norb = 0 the pair case is `PairOverNoOrbitalsFails`). |
| `Bitstrings.Addresses` | python/ffsim/states/states.py:337-345 | `cistring.strs2addr`: one address per parsed field, each the field's sector address and below C(norb, n). Its partner `StringsToIndicesOfIndicesToStrings` shows the addresses read back are the ones rendered. |
| `Bitstrings.StringsToIndices` | python/ffsim/states/states.py:336-347 | With `int(s, 2)` modelled on '0'/'1' text only, the conversion fails iff there is at least one string and either some string has another character or nelec is a pair with norb = 0 (the beta field `s[:0]` is empty). Otherwise there is one index per string, each below `dim`. |
| `Bitstrings.CombineAll` | python/ffsim/states/states.py:347 | `addrs_a * dim_b + addrs_b`, entry-wise and on unbounded integers, lands in range and splits back into the two addresses. |
| `Bitstrings.StringsToIndicesOfIndicesToStrings` | python/ffsim/states/states.py:304-347 | Rendering any in-range indices and reading them back gives the same indices. The one exception is a nonempty list for a spin pair with norb = 0, which fails with the empty-text error. |
| `Bitstrings.IndicesToStringsOfStringsToIndices` | python/ffsim/states/states.py:263-301 | Reading well-formed binary strings succeeds unless they are spin pairs over zero orbitals. When it succeeds, rendering the indices gives the same strings. |
| `Bitstrings.ThreeOrbitalsExample` | python/ffsim/states/states.py:269-287 | For norb = 3 and nelec = (2, 1), `indices_to_strings(range(9))` is the nine strings of the docstring, in order. |
| `Bitstrings.ThreeOrbitalsIndicesExample` | python/ffsim/states/states.py:309-334 | The nine strings of the docstring read back as the indices 0..8. |
| `Bitstrings.NoOrbitalsRendering` | python/ffsim/states/states.py:298-301 | With no orbitals the spin-pair vacuum renders as "00", and reading "00" back fails on the empty beta field. |
| `Bitstrings.NoOrbitalsSpinless` | python/ffsim/states/states.py:289-291 | With no orbitals the spinless vacuum renders as "0", and "0" reads back as index 0. |
| `Bitstrings.PairOverNoOrbitalsFails` | python/ffsim/states/states.py:340-345 | Any nonempty list of spin-pair strings over zero orbitals fails to read: each beta field `s[:0]` is empty, and the empty text is not a binary literal. |
| `Bitstrings.StringRendersBack` | python/ffsim/states/states.py:289-301 | A string read as an index renders back as itself. |
| `LegacyStates.LegacySlaterDeterminant` | python/ffsim/states.py:27-46 | The earlier `slater_determinant` fails, with `int("", 2)`, iff norb = 0. Otherwise it is a unit-sum vector of length `dim`. |
| `LegacyStates.LegacyMatchesSlaterDeterminant` | python/ffsim/states.py:33-46 | For norb ≥ 1 the earlier function returns exactly the current determinant. |
| `LegacyStates.LegacyVacuumRefused` | python/ffsim/states.py:38-40 | With no orbitals the earlier function fails, while the current one returns [1]. |
| `LegacyStates.OneRdm` | python/ffsim/states.py:67-71 | Both diagonal assignments, with beta shifted by norb, give a 2norb×2norb diagonal of spin-orbital occupations. |
| `LegacyStates.LegacyOneRdm` | python/ffsim/states.py:49-72 | The earlier `slater_determinant_one_rdm` fails iff the alpha or the beta list is empty. Otherwise it returns the spin-orbital diagonal. |
| `LegacyStates.OneRdmMatchesRdm` | python/ffsim/states.py:67-71 | The spin-orbital diagonal equals the current rank-1, spin-resolved `slater_determinant_rdm`. |
| `LegacyStates.OneRdmTrace` | python/ffsim/states.py:67-72 | For duplicate-free lists the matrix has 0/1 entries and trace `len(alpha) + len(beta)`. |
| `LegacyStates.EmptyBetaRefused` | python/ffsim/states.py:68-71 | One alpha electron in one orbital: the earlier function fails on the empty beta list, where the intended matrix is [[1, 0], [0, 0]]. |

## Left out

- Orbital rotations, in `slater_determinant` and `slater_determinant_rdm`, are left out. They are complex floating-point linear algebra, and this model covers only the no-rotation case.
- The `dtype` arguments are left out. Coefficients are integers. This is exact without a rotation, where every entry is 0, 1 or 2 (2 only in the spin-summed density matrix).
- `spin_square`, the `StateVector` dataclass and the typing-only `@overload` stubs of `slater_determinant` are left out. They are outside the indexing core.
- The `@deprecated` wrapper on `one_hot` is left out. It only issues a warning. `ffsim.linalg.one_hot` is not part of this model: `Arrays.OneHot` follows the deprecated copy, which does the same.
- pyscf's `cistring` is not part of this model. Addressing is defined by ascending numeric order, which fixes it for every mask. pyscf's 64-orbital limit on integer strings is not modelled.
- Caller errors the source does not check are preconditions, not modelled failures. These are: repeated orbitals, negative orbitals (numpy would wrap them), indices at or above `dim`, particle counts above `norb` in `hartree_fock_state`, and strings of the wrong length or weight in `strings_to_indices`.
- Orbitals at or above `norb` are a precondition too. They are not a modelled failure, although numpy raises `IndexError` for them: at python/ffsim/states/states.py:164, 168, 242 and 244, and at python/ffsim/states.py:39 and 43. In the earlier `slater_determinant_one_rdm` (python/ffsim/states.py:70-71), an alpha orbital in [norb, 2·norb) raises nothing and marks a beta diagonal entry instead. Only an index at or above 2·norb, after the beta shift, raises there.
- BinaryText.ParseBinary: `int(s, 2)` also accepts surrounding whitespace, underscores between digits, a sign and a `0b` prefix. The model refuses these. On the `slater_determinant` path this loses nothing, because the text there is built from '0' and '1' only.
- Bitstrings.StringsToIndices: the strings come from the caller, so Python also reads spellings the model refuses. `"0b1"`, `" 01"`, `"0_1"` and `"+01"` all parse as 1, so `strings_to_indices(["0b1"], 3, 1)` returns `[0]` where the model fails. A `"-"` sign would give a negative integer, which the mask model cannot hold.
- Bitstrings.CombineAll: pyscf's `strs2addr` returns int32 addresses, and `addrs_a * dim_b + addrs_b` is numpy int32 arithmetic, which wraps once dim_a·dim_b exceeds 2^31 − 1 (for example norb = 18, nelec = (9, 9), where 48620² ≈ 2.36·10^9). The model combines on unbounded integers.
- Bitstrings.StringsToIndicesOfIndicesToStrings: proved for every in-range index on unbounded integers. In the source, indices at or above 2^31 come back wrapped by the int32 recombination, so the round trip holds there only while dim ≤ 2^31 − 1.
- Bitstrings.IndicesToStringsOfStringsToIndices: proved on unbounded integers. In the source, strings whose combined index exceeds 2^31 − 1 read back to a wrapped index, so the round trip holds there only while dim ≤ 2^31 − 1.
- `isinstance(nelec, int)` and `isinstance(occupied_orbitals[0], (int, np.integer))` are modelled by the shape of the `Nelec` and `Occupations` datatypes, not by runtime type tests.
- The rank-2 and higher density matrices are left out. The source raises `NotImplementedError` for them, which the model returns as the `UnsupportedRank` failure.
- The `molecular_data` module and the test files are left out. They are callers, not part of the indexing core.

## Findings

| source | as written | input that shows it | evidently intended | confidence | as-written member | corrected member |
|---|---|---|---|---|---|---|
| python/ffsim/states.py:38-40 | With no orbitals the bit string is empty, and `int("", base=2)` raises `ValueError`. | norb = 0, occupied_orbitals = ([], []) | The vacuum vector [1], which the current `slater_determinant` returns for norb = 0. | medium, not executed | `LegacyStates.LegacyVacuumRefused` | `States.SlaterDeterminant` |
| python/ffsim/states.py:68-71 | `np.array([])` of an empty list has a float dtype, and numpy refuses a float array as an index, so an empty alpha or beta list raises `IndexError`. | norb = 1, occupied_orbitals = ([0], []) | The diagonal with the empty sector left at zero, [[1, 0], [0, 0]]. The current `slater_determinant_rdm` gets this by guarding each assignment with `if len(...)`. | medium, not executed | `LegacyStates.EmptyBetaRefused` | `LegacyStates.OneRdm` |

=== FILE: arrays.dfy ===
/** The numpy operations the states are assembled from, on integer entries:
    one-hot arrays, row-major flattening, and square-matrix helpers. */
module Arrays {
  import opened FciSpace

  type Vector = seq<int>
  type Matrix = seq<seq<int>>

  function Sum(v: Vector): int
  {
    if |v| == 0 then 0 else Sum(v[..|v| - 1]) + v[|v| - 1]
  }

  function ZeroVector(n: nat): (v: Vector)
    ensures |v| == n
  {
    seq(n, i => 0)
  }

  lemma {:induction false} SumOfZeros(n: nat)
    ensures Sum(ZeroVector(n)) == 0
  {
    if n > 0 {
      assert ZeroVector(n)[..n - 1] == ZeroVector(n - 1);
      SumOfZeros(n - 1);
    }
  }

  /** Overwriting one entry changes the sum by the difference. */
  lemma {:induction false} SumUpdate(v: Vector, j: nat, x: int)
    requires j < |v|
    ensures Sum(v[j := x]) == Sum(v) - v[j] + x
  {
    var w := v[j := x];
    if j < |v| - 1 {
      assert w[..|w| - 1] == v[..|v| - 1][j := x];
      SumUpdate(v[..|v| - 1], j, x);
    } else {
      assert w[..|w| - 1] == v[..|v| - 1];
    }
  }

  /** `one_hot(n, index)`: all zeros except a single 1 at index. */
  function OneHot(n: nat, index: nat): (v: Vector)
    requires index < n
    ensures |v| == n && v[index] == 1
    ensures forall k :: 0 <= k < n && k != index ==> v[k] == 0
  {
    ZeroVector(n)[index := 1]
  }

  /** A one-hot vector has unit sum: its single nonzero entry is 1. */
  lemma OneHotSum(n: nat, index: nat)
    requires index < n
    ensures Sum(OneHot(n, index)) == 1
  {
    SumOfZeros(n);
    SumUpdate(ZeroVector(n), index, 1);
  }

  predicate IsMatrix(m: Matrix, rows: nat, cols: nat)
  {
    |m| == rows && forall i :: 0 <= i < rows ==> |m[i]| == cols
  }

  /** The 2-D one-hot array: rows x cols zeros with a single 1 at (i, j). */
  function OneHotMatrix(rows: nat, cols: nat, i: nat, j: nat): (m: Matrix)
    requires i < rows && j < cols
    ensures IsMatrix(m, rows, cols)
    ensures forall p, q :: 0 <= p < rows && 0 <= q < cols ==>
      m[p][q] == (if p == i && q == j then 1 else 0)
  {
    var hot := OneHot(cols, j);
    var zero := ZeroVector(cols);
    var m := seq(rows, p => if p == i then hot else zero);
    assert forall p :: 0 <= p < rows ==> m[p] == (if p == i then hot else zero);
    m
  }

  /** Row-major flattening: the rows concatenated in order. */
  function Flatten(m: Matrix): Vector
  {
    if |m| == 0 then [] else m[0] + Flatten(m[1..])
  }

  /** Entry k of the flattened matrix is the entry at row k / cols, column k % cols. */
  lemma {:induction false} FlattenEntry(m: Matrix, rows: nat, cols: nat, k: nat)
    requires IsMatrix(m, rows, cols) && k < rows * cols
    ensures |Flatten(m)| == rows * cols
    ensures cols > 0 && k / cols < rows
    ensures Flatten(m)[k] == m[k / cols][k % cols]
  {
    FlattenLength(m, rows, cols);
    CombineSplitIndex(rows, cols, k);
    if k >= cols {
      assert IsMatrix(m[1..], rows - 1, cols);
      DivModUnique(k, cols, k / cols, k % cols);
      DivModUnique(k - cols, cols, k / cols - 1, k % cols);
      FlattenEntry(m[1..], rows - 1, cols, k - cols);
    } else {
      DivModUnique(k, cols, 0, k);
    }
  }

  lemma {:induction false} FlattenLength(m: Matrix, rows: nat, cols: nat)
    requires IsMatrix(m, rows, cols)
    ensures |Flatten(m)| == rows * cols
  {
    if rows > 0 {
      assert IsMatrix(m[1..], rows - 1, cols);
      FlattenLength(m[1..], rows - 1, cols);
    }
  }

  /** Flattening a 2-D one-hot array gives the 1-D one-hot vector at the
      combined index i * cols + j. */
  lemma FlattenOneHotMatrix(rows: nat, cols: nat, i: nat, j: nat)
    requires i < rows && j < cols
    ensures CombinedIndex(i, j, cols) < rows * cols
    ensures Flatten(OneHotMatrix(rows, cols, i, j)) == OneHot(rows * cols, CombinedIndex(i, j, cols))
  {
    SplitCombinedIndex(rows, cols, i, j);
    var m := OneHotMatrix(rows, cols, i, j);
    var f := Flatten(m);
    var o := OneHot(rows * cols, CombinedIndex(i, j, cols));
    FlattenLength(m, rows, cols);
    forall k | 0 <= k < rows * cols
      ensures f[k] == o[k]
    {
      FlattenEntry(m, rows, cols, k);
      CombineSplitIndex(rows, cols, k);
      if k / cols == i && k % cols == j {
        assert k == CombinedIndex(i, j, cols);
      }
    }
  }

  /** Two matrices of the same shape with the same entries are equal. */
  lemma MatrixExtensional(a: Matrix, b: Matrix, rows: nat, cols: nat)
    requires IsMatrix(a, rows, cols) && IsMatrix(b, rows, cols)
    requires forall p, q :: 0 <= p < rows && 0 <= q < cols ==> a[p][q] == b[p][q]
    ensures a == b
  {
    forall p | 0 <= p < rows ensures a[p] == b[p] {
      assert forall q :: 0 <= q < cols ==> a[p][q] == b[p][q];
    }
  }

  function ZeroMatrix(n: nat): (m: Matrix)
    ensures IsMatrix(m, n, n)
    ensures forall p, q :: 0 <= p < n && 0 <= q < n ==> m[p][q] == 0
  {
    seq(n, i => ZeroVector(n))
  }

  /** Diagonal assignment through an index list: set the listed diagonal entries to 1 and
      leave every other entry. */
  function SetDiagonal(m: Matrix, n: nat, idx: seq<nat>): (r: Matrix)
    requires IsMatrix(m, n, n)
    requires forall k :: 0 <= k < |idx| ==> idx[k] < n
    ensures IsMatrix(r, n, n)
    ensures forall p, q :: 0 <= p < n && 0 <= q < n ==>
      r[p][q] == (if p == q && p in idx then 1 else m[p][q])
    decreases |idx|
  {
    if |idx| == 0 then m
    else
      var o := idx[0];
      var r := SetDiagonal(m[o := m[o][o := 1]], n, idx[1..]);
      assert forall p :: p in idx <==> p == o || p in idx[1..];
      r
  }

  /** Entry-wise sum of two n x n matrices, row by row. */
  function Add(a: Matrix, b: Matrix, n: nat): (r: Matrix)
    requires IsMatrix(a, n, n) && IsMatrix(b, n, n)
    ensures IsMatrix(r, n, n)
    ensures forall p, q :: 0 <= p < n && 0 <= q < n ==> r[p][q] == a[p][q] + b[p][q]
  {
    seq(n, p requires 0 <= p < n => AddVectors(a[p], b[p]))
  }

  /** `scipy.linalg.block_diag(a, b)` for two n x n blocks: the rows of a padded on the
      right with n zeros, followed by the rows of b padded on the left with n zeros.
      Entry-wise, a fills the top-left block, b the bottom-right one, zeros elsewhere. */
  function BlockDiag(a: Matrix, b: Matrix, n: nat): (r: Matrix)
    requires IsMatrix(a, n, n) && IsMatrix(b, n, n)
    ensures IsMatrix(r, 2 * n, 2 * n)
    ensures forall p, q :: 0 <= p < 2 * n && 0 <= q < 2 * n ==>
      r[p][q] == (if p < n && q < n then a[p][q]
                  else if n <= p && n <= q then b[p - n][q - n]
                  else 0)
  {
    var top := seq(n, p requires 0 <= p < n => a[p] + ZeroVector(n));
    var bottom := seq(n, p requires 0 <= p < n => ZeroVector(n) + b[p]);
    var r := top + bottom;
    assert forall p :: 0 <= p < 2 * n ==>
      r[p] == (if p < n then a[p] + ZeroVector(n) else ZeroVector(n) + b[p - n]);
    r
  }

  function Diagonal(m: Matrix, n: nat): (d: Vector)
    requires IsMatrix(m, n, n)
    ensures |d| == n && forall p :: 0 <= p < n ==> d[p] == m[p][p]
  {
    seq(n, p requires 0 <= p < n => m[p][p])
  }

  function Trace(m: Matrix, n: nat): int
    requires IsMatrix(m, n, n)
  {
    Sum(Diagonal(m, n))
  }

  /** Sums split over concatenation. */
  lemma {:induction false} SumConcat(u: Vector, v: Vector)
    ensures Sum(u + v) == Sum(u) + Sum(v)
  {
    if |v| > 0 {
      assert (u + v)[..|u + v| - 1] == u + v[..|v| - 1];
      SumConcat(u, v[..|v| - 1]);
    } else {
      assert u + v == u;
    }
  }

  /** Entry-wise sum of two vectors of the same length. */
  function AddVectors(u: Vector, v: Vector): (w: Vector)
    requires |u| == |v|
    ensures |w| == |u| && forall i :: 0 <= i < |u| ==> w[i] == u[i] + v[i]
  {
    seq(|u|, i requires 0 <= i < |u| => u[i] + v[i])
  }

  /** Sums are additive over entry-wise addition. */
  lemma {:induction false} SumAddVectors(u: Vector, v: Vector)
    requires |u| == |v|
    ensures Sum(AddVectors(u, v)) == Sum(u) + Sum(v)
  {
    if |u| > 0 {
      var n := |u| - 1;
      assert AddVectors(u, v)[..n] == AddVectors(u[..n], v[..n]);
      SumAddVectors(u[..n], v[..n]);
    }
  }

  /** The diagonal of a sum is the sum of the diagonals. */
  lemma DiagonalOfAdd(a: Matrix, b: Matrix, n: nat)
    requires IsMatrix(a, n, n) && IsMatrix(b, n, n)
    ensures Diagonal(Add(a, b, n), n) == AddVectors(Diagonal(a, n), Diagonal(b, n))
  {
    var d, e := Diagonal(Add(a, b, n), n), AddVectors(Diagonal(a, n), Diagonal(b, n));
    assert forall p :: 0 <= p < n ==> d[p] == e[p];
  }

  /** The trace is additive over matrix sums. */
  lemma TraceOfAdd(a: Matrix, b: Matrix, n: nat)
    requires IsMatrix(a, n, n) && IsMatrix(b, n, n)
    ensures Trace(Add(a, b, n), n) == Trace(a, n) + Trace(b, n)
  {
    DiagonalOfAdd(a, b, n);
    SumAddVectors(Diagonal(a, n), Diagonal(b, n));
  }

  /** The diagonal of a block-diagonal matrix is the first block's diagonal followed
      by the second's. */
  lemma DiagonalOfBlockDiag(a: Matrix, b: Matrix, n: nat)
    requires IsMatrix(a, n, n) && IsMatrix(b, n, n)
    ensures Diagonal(BlockDiag(a, b, n), 2 * n) == Diagonal(a, n) + Diagonal(b, n)
  {
    var d, e := Diagonal(BlockDiag(a, b, n), 2 * n), Diagonal(a, n) + Diagonal(b, n);
    forall p | 0 <= p < 2 * n ensures d[p] == e[p] {
      if p >= n {
        assert e[p] == Diagonal(b, n)[p - n];
      }
    }
  }

  /** The trace of a block-diagonal matrix is the sum of the blocks' traces. */
  lemma TraceOfBlockDiag(a: Matrix, b: Matrix, n: nat)
    requires IsMatrix(a, n, n) && IsMatrix(b, n, n)
    ensures Trace(BlockDiag(a, b, n), 2 * n) == Trace(a, n) + Trace(b, n)
  {
    DiagonalOfBlockDiag(a, b, n);
    SumConcat(Diagonal(a, n), Diagonal(b, n));
  }
}

=== FILE: binary_text.dfy ===
/** Text renderings of masks: Python's `int(text, 2)` and the format `f"{x:0{w}b}"`,
    both most-significant bit first. */
module BinaryText {
  import opened Combinatorics
  import opened Bitmask
  import opened Wrappers

  predicate IsBinaryDigit(c: char)
  {
    c == '0' || c == '1'
  }

  predicate IsBinaryText(s: string)
  {
    forall i :: 0 <= i < |s| ==> IsBinaryDigit(s[i])
  }

  function DigitChar(d: nat): char
  {
    if d == 1 then '1' else '0'
  }

  function Zeros(k: nat): string
  {
    seq(k, _ => '0')
  }

  /** The number of '1' characters. */
  function CountOnes(s: string): nat
  {
    if |s| == 0 then 0
    else CountOnes(s[..|s| - 1]) + (if s[|s| - 1] == '1' then 1 else 0)
  }

  /** The value of a digit string read most-significant first. */
  function DigitsValue(s: string): nat
  {
    if |s| == 0 then 0
    else 2 * DigitsValue(s[..|s| - 1]) + (if s[|s| - 1] == '1' then 1 else 0)
  }

  /** The low w bits of x, most-significant first. */
  function FixedWidth(x: nat, w: nat): (s: string)
    ensures |s| == w
  {
    if w == 0 then [] else FixedWidth(x / 2, w - 1) + [DigitChar(x % 2)]
  }

  /** Python's `bin(x)` without the prefix: no leading zeros, "0" for zero. */
  function BinaryDigits(x: nat): string
  {
    if x < 2 then [DigitChar(x)] else BinaryDigits(x / 2) + [DigitChar(x % 2)]
  }

  function PadLeft(d: string, w: nat): string
  {
    if |d| < w then Zeros(w - |d|) + d else d
  }

  lemma {:induction false} DigitsValueBound(s: string)
    ensures DigitsValue(s) < Pow2(|s|)
  {
    if |s| > 0 {
      DigitsValueBound(s[..|s| - 1]);
    }
  }

  lemma {:induction false} PopcountOfDigitsValue(s: string)
    ensures Popcount(DigitsValue(s)) == CountOnes(s)
  {
    if |s| > 0 {
      var prefix := s[..|s| - 1];
      var b := if s[|s| - 1] == '1' then 1 else 0;
      PopcountOfDigitsValue(prefix);
      Halve(DigitsValue(prefix), b);
      assert DigitsValue(s) == 2 * DigitsValue(prefix) + b;
    }
  }

  /** Bit i of the value is the i-th character from the right. */
  lemma {:induction false} BitOfDigitsValue(s: string, i: nat)
    requires i < |s|
    ensures Bit(DigitsValue(s), i) <==> s[|s| - 1 - i] == '1'
  {
    var v := DigitsValue(s);
    assert v / 2 == DigitsValue(s[..|s| - 1]);
    if i > 0 {
      BitOfDigitsValue(s[..|s| - 1], i - 1);
    }
  }

  lemma {:induction false} DigitsValueOfFixedWidth(x: nat, w: nat)
    requires x < Pow2(w)
    ensures DigitsValue(FixedWidth(x, w)) == x
  {
    if w > 0 {
      var s := FixedWidth(x, w);
      assert s[..|s| - 1] == FixedWidth(x / 2, w - 1);
      DigitsValueOfFixedWidth(x / 2, w - 1);
    }
  }

  lemma {:induction false} FixedWidthOfDigitsValue(s: string)
    requires IsBinaryText(s)
    ensures FixedWidth(DigitsValue(s), |s|) == s
  {
    if |s| > 0 {
      var p := s[..|s| - 1];
      var v := DigitsValue(s);
      assert v / 2 == DigitsValue(p) && v % 2 == (if s[|s| - 1] == '1' then 1 else 0);
      FixedWidthOfDigitsValue(p);
      assert s == p + [s[|s| - 1]];
    }
  }

  lemma {:induction false} FixedWidthOfZero(w: nat)
    ensures FixedWidth(0, w) == Zeros(w)
  {
    if w > 0 {
      FixedWidthOfZero(w - 1);
    }
  }

  lemma {:induction false} BinaryDigitsFitWidth(x: nat, w: nat)
    requires 1 <= w && x < Pow2(w)
    ensures PadLeft(BinaryDigits(x), w) == FixedWidth(x, w)
  {
    if x < 2 {
      FixedWidthOfZero(w - 1);
    } else {
      BinaryDigitsFitWidth(x / 2, w - 1);
      var d := BinaryDigits(x / 2);
      var c := [DigitChar(x % 2)];
      if |d| + 1 < w {
        assert Zeros(w - |d| - 1) + (d + c) == (Zeros(w - 1 - |d|) + d) + c;
      }
    }
  }

  /** `int(s, 2)` restricted to digits: it reads text made of '0' and '1' and fails on the
      empty string and on any other character, including the whitespace, underscores,
      sign and `0b` prefix that Python also accepts. */
  function ParseBinary(s: string): (r: Result<nat, Failure>)
    ensures r.Ok? <==> |s| > 0 && IsBinaryText(s)
    ensures r.Err? ==> r.error == InvalidBinaryLiteral(s)
    ensures r.Ok? ==> r.value < Pow2(|s|) && Popcount(r.value) == CountOnes(s)
    ensures r.Ok? ==> forall i :: 0 <= i < |s| ==> (Bit(r.value, i) <==> s[|s| - 1 - i] == '1')
    ensures r.Ok? ==> FixedWidth(r.value, |s|) == s
  {
    if |s| == 0 || !IsBinaryText(s) then Err(InvalidBinaryLiteral(s))
    else
      DigitsValueBound(s);
      PopcountOfDigitsValue(s);
      FixedWidthOfDigitsValue(s);
      assert forall i :: 0 <= i < |s| ==> (Bit(DigitsValue(s), i) <==> s[|s| - 1 - i] == '1') by {
        forall i | 0 <= i < |s| {
          BitOfDigitsValue(s, i);
        }
      }
      Ok(DigitsValue(s))
  }

  /** `f"{x:0{w}b}"`: binary digits of x, zero-padded on the left to width w. For a value
      that fits in w >= 1 bits the text is exactly w characters and parses back to x. */
  function FormatBinary(x: nat, w: nat): (s: string)
    ensures 1 <= w && x < Pow2(w) ==> s == FixedWidth(x, w) && ParseBinary(s) == Ok(x)
    ensures w == 0 && x == 0 ==> s == "0"
  {
    FormatBinaryFits(x, w);
    PadLeft(BinaryDigits(x), w)
  }

  lemma FormatBinaryFits(x: nat, w: nat)
    ensures 1 <= w && x < Pow2(w) ==> PadLeft(BinaryDigits(x), w) == FixedWidth(x, w)
    ensures 1 <= w && x < Pow2(w) ==> ParseBinary(FixedWidth(x, w)) == Ok(x)
  {
    if 1 <= w && x < Pow2(w) {
      BinaryDigitsFitWidth(x, w);
      DigitsValueOfFixedWidth(x, w);
      FixedWidthIsBinary(x, w);
    }
  }

  lemma {:induction false} FixedWidthIsBinary(x: nat, w: nat)
    ensures IsBinaryText(FixedWidth(x, w))
  {
    if w > 0 {
      FixedWidthIsBinary(x / 2, w - 1);
    }
  }
}

=== FILE: bitmask.dfy ===
/** Occupation bitmasks: bit i of the integer is set exactly when orbital i is occupied. */
module Bitmask {
  import opened Combinatorics

  /** Whether bit i of m is set. */
  function Bit(m: nat, i: nat): bool
  {
    if i == 0 then m % 2 == 1 else Bit(m / 2, i - 1)
  }

  /** The Hamming weight of m, i.e. the number of occupied orbitals. */
  function Popcount(m: nat): nat
  {
    if m == 0 then 0 else m % 2 + Popcount(m / 2)
  }

  /** m describes n particles in norb orbitals. */
  predicate IsMask(norb: nat, n: nat, m: nat)
  {
    m < Pow2(norb) && Popcount(m) == n
  }

  /** The number of masks of weight n numerically below m. */
  function CountBelow(n: nat, m: nat): nat
  {
    if m == 0 then 0
    else CountBelow(n, m - 1) + (if Popcount(m - 1) == n then 1 else 0)
  }

  /** Setting a bit above every set bit adds one particle. */
  lemma {:induction false} PopcountTopBit(k: nat, x: nat)
    requires x < Pow2(k)
    ensures Popcount(Pow2(k) + x) == 1 + Popcount(x)
  {
    if k > 0 {
      var y := Pow2(k) + x;
      Halve(x / 2, x % 2);
      Halve(Pow2(k - 1) + x / 2, x % 2);
      assert y == 2 * (Pow2(k - 1) + x / 2) + x % 2;
      PopcountTopBit(k - 1, x / 2);
    }
  }

  /** A k-bit mask has at most k particles. */
  lemma {:induction false} PopcountBound(k: nat, x: nat)
    requires x < Pow2(k)
    ensures Popcount(x) <= k
  {
    if k > 0 && x > 0 {
      PopcountBound(k - 1, x / 2);
    }
  }

  /** Counting past 2^k: the masks in [2^k, 2^k + x) are the masks below x with the top bit added. */
  lemma {:induction false} CountBelowShift(n: nat, k: nat, x: nat)
    requires x <= Pow2(k)
    ensures CountBelow(n, Pow2(k) + x)
            == CountBelow(n, Pow2(k)) + (if n == 0 then 0 else CountBelow(n - 1, x))
  {
    if x > 0 {
      CountBelowShift(n, k, x - 1);
      PopcountTopBit(k, x - 1);
    }
  }

  /** The masks of weight n below 2^k + x: all C(k, n) masks of k bits, then those
      below x with one particle fewer. */
  lemma CountBelowUpperHalf(n: nat, k: nat, x: nat)
    requires x <= Pow2(k)
    ensures CountBelow(n, Pow2(k) + x)
            == Binomial(k, n) + (if n == 0 then 0 else CountBelow(n - 1, x))
  {
    CountBelowShift(n, k, x);
    CountBelowPow2(n, k);
  }

  /** There are C(k, n) masks of weight n on k bits. */
  lemma {:induction false} CountBelowPow2(n: nat, k: nat)
    ensures CountBelow(n, Pow2(k)) == Binomial(k, n)
  {
    if k > 0 {
      CountBelowPow2(n, k - 1);
      if n > 0 {
        CountBelowPow2(n - 1, k - 1);
      }
      CountBelowShift(n, k - 1, Pow2(k - 1));
    }
  }

  /** CountBelow never decreases as the bound grows. */
  lemma {:induction false} CountBelowMonotone(n: nat, m1: nat, m2: nat)
    requires m1 <= m2
    ensures CountBelow(n, m1) <= CountBelow(n, m2)
    decreases m2 - m1
  {
    if m1 < m2 {
      CountBelowMonotone(n, m1, m2 - 1);
    }
  }
}

=== FILE: bitstrings.dfy ===
/** `indices_to_strings` and `strings_to_indices`: statevector indices rendered as
    text, the beta field first and then the alpha field, each norb characters with
    orbital 0 rightmost. A spinless count uses a single field. With no orbitals a
    field is still one digit wide, since a zero-width binary format writes "0". */
module Bitstrings {
  import opened Combinatorics
  import opened Bitmask
  import opened CiString
  import opened BinaryText
  import opened FciSpace
  import opened Wrappers

  /** The width of a rendered field: norb characters, or one when norb = 0. */
  function FieldWidth(norb: nat): nat
  {
    if norb == 0 then 1 else norb
  }

  /** A rendered field of n ones, with n no larger than the number of orbitals. */
  predicate FieldShape(field: string, norb: nat, n: nat)
  {
    |field| == FieldWidth(norb) && CountOnes(field) == n && n <= norb
  }

  /** What `strings_to_indices` needs of each string: the shape `indices_to_strings`
      renders. The source checks neither length nor weight. */
  predicate StringShape(s: string, norb: nat, nelec: Nelec)
  {
    match nelec
    case SpinlessCount(n) => FieldShape(s, norb, n)
    case SpinCounts(nAlpha, nBeta) =>
      var w := FieldWidth(norb);
      |s| == 2 * w && FieldShape(s[w..], norb, nAlpha) && FieldShape(s[..w], norb, nBeta)
  }

  /** The text of one index: the mask at each address rendered at width norb, beta
      field first. It is binary text of the shape `strings_to_indices` reads. */
  function IndexString(index: nat, norb: nat, nelec: Nelec): (s: string)
    requires index < Dim(norb, nelec)
    ensures StringShape(s, norb, nelec) && IsBinaryText(s)
  {
    match nelec
    case SpinlessCount(n) =>
      var m := Addr2Str(norb, n, index);
      RenderedField(m, norb, n);
      FormatBinary(m, norb)
    case SpinCounts(nAlpha, nBeta) =>
      var dimB := Binomial(norb, nBeta);
      CombineSplitIndex(Binomial(norb, nAlpha), dimB, index);
      var (addrA, addrB) := SplitIndex(index, dimB);
      var ma := Addr2Str(norb, nAlpha, addrA);
      var mb := Addr2Str(norb, nBeta, addrB);
      RenderedPair(norb, nAlpha, nBeta, ma, mb);
      FormatBinary(mb, norb) + FormatBinary(ma, norb)
  }

  /** A weight-n mask over norb orbitals renders as binary text of the field shape. */
  lemma RenderedField(m: nat, norb: nat, n: nat)
    requires IsMask(norb, n, m)
    ensures FieldShape(FormatBinary(m, norb), norb, n) && IsBinaryText(FormatBinary(m, norb))
  {
    PopcountBound(norb, m);
    if norb >= 1 {
      FixedWidthIsBinary(m, norb);
    } else {
      assert FormatBinary(m, norb) == "0";
      assert CountOnes("0") == CountOnes("") + 0;
    }
  }

  /** A beta mask's field followed by an alpha mask's field has the two-field shape. */
  lemma RenderedPair(norb: nat, nAlpha: nat, nBeta: nat, ma: nat, mb: nat)
    requires IsMask(norb, nAlpha, ma) && IsMask(norb, nBeta, mb)
    ensures StringShape(FormatBinary(mb, norb) + FormatBinary(ma, norb), norb, SpinCounts(nAlpha, nBeta))
    ensures IsBinaryText(FormatBinary(mb, norb) + FormatBinary(ma, norb))
  {
    var w := FieldWidth(norb);
    var fb, fa := FormatBinary(mb, norb), FormatBinary(ma, norb);
    RenderedField(ma, norb, nAlpha);
    RenderedField(mb, norb, nBeta);
    var s := fb + fa;
    assert s[..w] == fb && s[w..] == fa;
    BinarySplit(s, w);
  }

  /** `indices_to_strings(indices, norb, nelec)`: every string is binary text of the
      shape `strings_to_indices` reads. */
  function IndicesToStrings(indices: seq<nat>, norb: nat, nelec: Nelec): (r: seq<string>)
    requires forall i :: 0 <= i < |indices| ==> indices[i] < Dim(norb, nelec)
    ensures |r| == |indices|
    ensures forall i :: 0 <= i < |r| ==> StringShape(r[i], norb, nelec) && IsBinaryText(r[i])
  {
    var r := seq(|indices|, i requires 0 <= i < |indices| => IndexString(indices[i], norb, nelec));
    EveryIndexStringShaped(indices, norb, nelec, r);
    r
  }

  lemma EveryIndexStringShaped(indices: seq<nat>, norb: nat, nelec: Nelec, r: seq<string>)
    requires forall i :: 0 <= i < |indices| ==> indices[i] < Dim(norb, nelec)
    requires |r| == |indices|
    requires forall i :: 0 <= i < |r| ==> r[i] == IndexString(indices[i], norb, nelec)
    ensures forall i :: 0 <= i < |r| ==> StringShape(r[i], norb, nelec) && IsBinaryText(r[i])
  {
    forall i | 0 <= i < |r| ensures StringShape(r[i], norb, nelec) && IsBinaryText(r[i]) {
      var s := IndexString(indices[i], norb, nelec);
    }
  }

  /** Each text read as a binary integer, in order; the first failure is the one raised. */
  function ParseAll(texts: seq<string>): (r: Result<seq<nat>, Failure>)
    ensures r.Ok? <==> forall i :: 0 <= i < |texts| ==> ParseBinary(texts[i]).Ok?
    ensures r.Ok? ==> |r.value| == |texts|
    ensures r.Ok? ==> forall i :: 0 <= i < |texts| ==> ParseBinary(texts[i]) == Ok(r.value[i])
    ensures r.Err? ==> exists i :: 0 <= i < |texts| && ParseBinary(texts[i]) == Err(r.error)
  {
    if |texts| == 0 then Ok([])
    else
      match ParseBinary(texts[0])
      case Err(e) => Err(e)
      case Ok(v) =>
        (match ParseAll(texts[1..])
         case Err(e) =>
           assert exists i :: 0 <= i < |texts| - 1 && ParseBinary(texts[1..][i]) == Err(e);
           Err(e)
         case Ok(vs) => Ok([v] + vs))
  }

  /** The sector address of each parsed field of the given weight, as pyscf's `strs2addr`
      returns them (python/ffsim/states/states.py:337-339 and 344-345). */
  function Addresses(norb: nat, n: nat, masks: seq<nat>): (r: seq<nat>)
    requires forall i :: 0 <= i < |masks| ==> IsMask(norb, n, masks[i])
    ensures |r| == |masks|
    ensures forall i :: 0 <= i < |masks| ==> r[i] == Str2Addr(norb, n, masks[i]) && r[i] < Binomial(norb, n)
  {
    seq(|masks|, i requires 0 <= i < |masks| => Str2Addr(norb, n, masks[i]))
  }

  /** The alpha field of each string: everything after its first norb characters
      (python/ffsim/states/states.py:342). */
  function AlphaFields(strings: seq<string>, norb: nat): (r: seq<string>)
    requires forall i :: 0 <= i < |strings| ==> |strings[i]| >= norb
    ensures |r| == |strings| && forall i :: 0 <= i < |strings| ==> r[i] == strings[i][norb..]
  {
    seq(|strings|, i requires 0 <= i < |strings| => strings[i][norb..])
  }

  /** The beta field of each string: its first norb characters (python/ffsim/states/states.py:343). */
  function BetaFields(strings: seq<string>, norb: nat): (r: seq<string>)
    requires forall i :: 0 <= i < |strings| ==> |strings[i]| >= norb
    ensures |r| == |strings| && forall i :: 0 <= i < |strings| ==> r[i] == strings[i][..norb]
  {
    seq(|strings|, i requires 0 <= i < |strings| => strings[i][..norb])
  }

  /** Every string is binary text, or there are no strings. A spin pair over zero
      orbitals never parses: its beta field, the first norb characters, is empty. */
  predicate AllParse(strings: seq<string>, norb: nat, nelec: Nelec)
  {
    |strings| == 0 ||
    ((norb >= 1 || nelec.SpinlessCount?) && forall i :: 0 <= i < |strings| ==> IsBinaryText(strings[i]))
  }

  lemma BinarySplit(s: string, k: nat)
    requires k <= |s|
    ensures IsBinaryText(s) <==> IsBinaryText(s[..k]) && IsBinaryText(s[k..])
  {
    if IsBinaryText(s[..k]) && IsBinaryText(s[k..]) {
      forall j | 0 <= j < |s|
        ensures IsBinaryDigit(s[j])
      {
        if j < k {
          assert s[j] == s[..k][j];
        } else {
          assert s[j] == s[k..][j - k];
        }
      }
    }
  }

  /** Parsing every field succeeds exactly when every string is binary text and, for a
      spin pair, the fields are not empty. */
  lemma ParseAllFields(strings: seq<string>, norb: nat, nelec: Nelec)
    requires forall i :: 0 <= i < |strings| ==> StringShape(strings[i], norb, nelec)
    ensures nelec.SpinlessCount? ==> (ParseAll(strings).Ok? <==> AllParse(strings, norb, nelec))
    ensures nelec.SpinCounts? ==>
      forall i :: 0 <= i < |strings| ==> |strings[i]| >= norb
    ensures nelec.SpinCounts? ==>
      (ParseAll(AlphaFields(strings, norb)).Ok? && ParseAll(BetaFields(strings, norb)).Ok?
       <==> AllParse(strings, norb, nelec))
  {
    if |strings| > 0 {
      if nelec.SpinlessCount? {
        assert |strings[0]| == FieldWidth(norb);
      } else if norb == 0 {
        assert BetaFields(strings, norb)[0] == [];
        assert !ParseBinary(BetaFields(strings, norb)[0]).Ok?;
      } else {
        assert |strings[0]| == 2 * norb;
        forall i | 0 <= i < |strings|
          ensures IsBinaryText(strings[i]) <==>
            IsBinaryText(strings[i][..norb]) && IsBinaryText(strings[i][norb..])
        {
          BinarySplit(strings[i], norb);
        }
      }
    }
  }

  /** Parsed fields of the right shape are masks of the right weight. */
  lemma ParsedFieldsAreMasks(fields: seq<string>, norb: nat, n: nat, masks: seq<nat>)
    requires forall i :: 0 <= i < |fields| ==> FieldShape(fields[i], norb, n)
    requires ParseAll(fields) == Ok(masks)
    ensures forall i :: 0 <= i < |masks| ==> IsMask(norb, n, masks[i])
  {
    forall i | 0 <= i < |masks|
      ensures IsMask(norb, n, masks[i])
    {
      ParsedFieldIsMask(fields[i], norb, n, masks[i]);
    }
  }

  lemma ParsedFieldIsMask(field: string, norb: nat, n: nat, m: nat)
    requires FieldShape(field, norb, n) && ParseBinary(field) == Ok(m)
    ensures IsMask(norb, n, m)
  {
    if norb == 0 {
      assert m < 2 && Popcount(m) == 0;
      assert Popcount(1) == 1;
    }
  }

  /** `strings_to_indices(strings, norb, nelec)`, with fields read by `ParseBinary`, which
      accepts '0'/'1' text only. Parsing fails exactly when some string has another
      character, or when a spin pair over zero orbitals leaves the beta field empty;
      otherwise every result lies in the FCI space. */
  function StringsToIndices(strings: seq<string>, norb: nat, nelec: Nelec): (r: Result<seq<nat>, Failure>)
    requires forall i :: 0 <= i < |strings| ==> StringShape(strings[i], norb, nelec)
    ensures r.Ok? <==> AllParse(strings, norb, nelec)
    ensures r.Ok? ==> |r.value| == |strings|
    ensures r.Ok? ==> forall i :: 0 <= i < |strings| ==> r.value[i] < Dim(norb, nelec)
  {
    ParseAllFields(strings, norb, nelec);
    match nelec
    case SpinlessCount(n) => SpinlessStringsToIndices(strings, norb, n)
    case SpinCounts(nAlpha, nBeta) => SpinStringsToIndices(strings, norb, nAlpha, nBeta)
  }

  /** The spinless branch: each whole string is one field. */
  function SpinlessStringsToIndices(strings: seq<string>, norb: nat, n: nat): (r: Result<seq<nat>, Failure>)
    requires forall i :: 0 <= i < |strings| ==> FieldShape(strings[i], norb, n)
    ensures r.Ok? <==> ParseAll(strings).Ok?
    ensures r.Ok? ==> |r.value| == |strings|
    ensures r.Ok? ==> forall i :: 0 <= i < |strings| ==> r.value[i] < Binomial(norb, n)
  {
    match ParseAll(strings)
    case Err(e) => Err(e)
    case Ok(masks) =>
      ParsedFieldsAreMasks(strings, norb, n, masks);
      Ok(Addresses(norb, n, masks))
  }

  /** The spin branch: parse every alpha field (after the first norb characters), then
      every beta field (the first norb characters), then combine the two addresses. */
  function SpinStringsToIndices(strings: seq<string>, norb: nat, nAlpha: nat, nBeta: nat)
    : (r: Result<seq<nat>, Failure>)
    requires forall i :: 0 <= i < |strings| ==>
      StringShape(strings[i], norb, SpinCounts(nAlpha, nBeta)) && |strings[i]| >= norb
    ensures r.Ok? <==> ParseAll(AlphaFields(strings, norb)).Ok? && ParseAll(BetaFields(strings, norb)).Ok?
    ensures r.Ok? ==> |r.value| == |strings|
    ensures r.Ok? ==> forall i :: 0 <= i < |strings| ==>
      r.value[i] < Binomial(norb, nAlpha) * Binomial(norb, nBeta)
  {
    var alphas := AlphaFields(strings, norb);
    var betas := BetaFields(strings, norb);
    match ParseAll(alphas)
    case Err(e) => Err(e)
    case Ok(masksA) =>
      (match ParseAll(betas)
       case Err(e) => Err(e)
       case Ok(masksB) =>
         PairFieldsAreMasks(strings, norb, nAlpha, nBeta, masksA, masksB);
         Ok(CombineAll(Addresses(norb, nAlpha, masksA), Addresses(norb, nBeta, masksB),
                       Binomial(norb, nAlpha), Binomial(norb, nBeta))))
  }

  /** When both field lists parse, the parsed values are masks of the two weights. */
  lemma PairFieldsAreMasks(strings: seq<string>, norb: nat, nAlpha: nat, nBeta: nat,
                           masksA: seq<nat>, masksB: seq<nat>)
    requires forall i :: 0 <= i < |strings| ==>
      StringShape(strings[i], norb, SpinCounts(nAlpha, nBeta)) && |strings[i]| >= norb
    requires ParseAll(AlphaFields(strings, norb)) == Ok(masksA)
    requires ParseAll(BetaFields(strings, norb)) == Ok(masksB)
    ensures |masksA| == |masksB| == |strings|
    ensures forall i :: 0 <= i < |strings| ==> IsMask(norb, nAlpha, masksA[i]) && IsMask(norb, nBeta, masksB[i])
  {
    forall i | 0 <= i < |strings|
      ensures IsMask(norb, nAlpha, masksA[i]) && IsMask(norb, nBeta, masksB[i])
    {
      assert ParseBinary(BetaFields(strings, norb)[i]) == Ok(masksB[i]);
      assert ParseBinary(AlphaFields(strings, norb)[i]) == Ok(masksA[i]);
      assert norb >= 1;
      ParsedFieldIsMask(strings[i][norb..], norb, nAlpha, masksA[i]);
      ParsedFieldIsMask(strings[i][..norb], norb, nBeta, masksB[i]);
    }
  }

  /** The combined index of each address pair: the alpha address times the beta dimension,
      plus the beta address (python/ffsim/states/states.py:347). */
  function CombineAll(addrsA: seq<nat>, addrsB: seq<nat>, dimA: nat, dimB: nat): (r: seq<nat>)
    requires |addrsA| == |addrsB|
    requires forall i :: 0 <= i < |addrsA| ==> addrsA[i] < dimA && addrsB[i] < dimB
    ensures |r| == |addrsA|
    ensures forall i :: 0 <= i < |r| ==>
      r[i] < dimA * dimB && SplitIndex(r[i], dimB) == (addrsA[i], addrsB[i])
  {
    var r := seq(|addrsA|, i requires 0 <= i < |addrsA| => CombinedIndex(addrsA[i], addrsB[i], dimB));
    assert forall i :: 0 <= i < |r| ==>
      r[i] < dimA * dimB && SplitIndex(r[i], dimB) == (addrsA[i], addrsB[i]) by {
      forall i | 0 <= i < |r|
        ensures r[i] < dimA * dimB && SplitIndex(r[i], dimB) == (addrsA[i], addrsB[i])
      {
        SplitCombinedIndex(dimA, dimB, addrsA[i], addrsB[i]);
      }
    }
    r
  }

  /** Each field of an index's text parses back to the mask at that field's address. */
  lemma IndexStringFields(index: nat, norb: nat, nelec: Nelec)
    requires (norb >= 1 || nelec.SpinlessCount?) && index < Dim(norb, nelec)
    ensures nelec.SpinlessCount? ==>
      ParseBinary(IndexString(index, norb, nelec)) == Ok(Addr2Str(norb, nelec.n, index))
    ensures nelec.SpinCounts? ==>
      var dimB := Binomial(norb, nelec.beta);
      var s := IndexString(index, norb, nelec);
      dimB > 0 && index / dimB < Binomial(norb, nelec.alpha) && |s| == 2 * norb &&
      ParseBinary(s[norb..]) == Ok(Addr2Str(norb, nelec.alpha, index / dimB)) &&
      ParseBinary(s[..norb]) == Ok(Addr2Str(norb, nelec.beta, index % dimB))
  {
    match nelec
    case SpinlessCount(n) =>
      if norb == 0 {
        ZeroWidthField();
      }
    case SpinCounts(nAlpha, nBeta) =>
      var dimB := Binomial(norb, nBeta);
      CombineSplitIndex(Binomial(norb, nAlpha), dimB, index);
      var s := IndexString(index, norb, nelec);
      var ma := Addr2Str(norb, nAlpha, index / dimB);
      var mb := Addr2Str(norb, nBeta, index % dimB);
      assert s[norb..] == FixedWidth(ma, norb) && s[..norb] == FixedWidth(mb, norb);
  }

  /** Rendering indices and reading them back gives the same indices, except for a
      spin pair over zero orbitals: its rendered "00" leaves an empty beta field. */
  lemma StringsToIndicesOfIndicesToStrings(indices: seq<nat>, norb: nat, nelec: Nelec)
    requires forall i :: 0 <= i < |indices| ==> indices[i] < Dim(norb, nelec)
    ensures StringsToIndices(IndicesToStrings(indices, norb, nelec), norb, nelec)
      == if norb == 0 && nelec.SpinCounts? && |indices| > 0 then Err(InvalidBinaryLiteral("")) else Ok(indices)
  {
    var strings := IndicesToStrings(indices, norb, nelec);
    if norb == 0 && nelec.SpinCounts? && |indices| > 0 {
      PairOverNoOrbitalsFails(strings, nelec.alpha, nelec.beta);
    } else {
      var r := StringsToIndices(strings, norb, nelec);
      assert r.Ok?;
      forall i | 0 <= i < |indices|
        ensures r.value[i] == indices[i]
      {
        IndexStringFields(indices[i], norb, nelec);
        match nelec
        case SpinlessCount(n) =>
          var masks := ParseAll(strings).value;
          assert ParseBinary(strings[i]) == Ok(masks[i]);
          Str2AddrOfAddr2Str(norb, n, indices[i]);
        case SpinCounts(nAlpha, nBeta) =>
          var dimA, dimB := Binomial(norb, nAlpha), Binomial(norb, nBeta);
          var masksA := ParseAll(AlphaFields(strings, norb)).value;
          var masksB := ParseAll(BetaFields(strings, norb)).value;
          assert ParseBinary(AlphaFields(strings, norb)[i]) == Ok(masksA[i]);
          assert ParseBinary(BetaFields(strings, norb)[i]) == Ok(masksB[i]);
          Str2AddrOfAddr2Str(norb, nAlpha, indices[i] / dimB);
          Str2AddrOfAddr2Str(norb, nBeta, indices[i] % dimB);
          CombineSplitIndex(dimA, dimB, indices[i]);
          CombineSplitIndex(dimA, dimB, r.value[i]);
      }
      assert |r.value| == |indices|;
      assert r.value == indices;
    }
  }

  /** Reading well-formed binary strings and rendering the indices gives the same strings.
      Reading succeeds unless the strings are spin pairs over zero orbitals. */
  lemma IndicesToStringsOfStringsToIndices(strings: seq<string>, norb: nat, nelec: Nelec)
    requires forall i :: 0 <= i < |strings| ==> StringShape(strings[i], norb, nelec)
    requires forall i :: 0 <= i < |strings| ==> IsBinaryText(strings[i])
    ensures StringsToIndices(strings, norb, nelec).Ok? <==> !(norb == 0 && nelec.SpinCounts? && |strings| > 0)
    ensures StringsToIndices(strings, norb, nelec).Ok? ==>
      IndicesToStrings(StringsToIndices(strings, norb, nelec).value, norb, nelec) == strings
  {
    var r := StringsToIndices(strings, norb, nelec);
    if r.Ok? {
      var back := IndicesToStrings(r.value, norb, nelec);
      forall i | 0 <= i < |strings|
        ensures back[i] == strings[i]
      {
        IndicesToStringsAt(r.value, norb, nelec, i);
        StringRendersBack(strings, norb, nelec, r.value, i);
      }
    }
  }

  /** String i renders back from the index it was read as. */
  lemma StringRendersBack(strings: seq<string>, norb: nat, nelec: Nelec, indices: seq<nat>, i: nat)
    requires forall k :: 0 <= k < |strings| ==> StringShape(strings[k], norb, nelec)
    requires StringsToIndices(strings, norb, nelec) == Ok(indices)
    requires i < |strings|
    ensures i < |indices| && indices[i] < Dim(norb, nelec)
    ensures IndexString(indices[i], norb, nelec) == strings[i]
  {
    match nelec
    case SpinlessCount(n) =>
      var masks := ParseAll(strings).value;
      assert ParseBinary(strings[i]) == Ok(masks[i]);
      SpinlessStringRoundTrip(strings[i], norb, n, masks[i]);
    case SpinCounts(nAlpha, nBeta) =>
      ParseAllFields(strings, norb, nelec);
      var masksA := ParseAll(AlphaFields(strings, norb)).value;
      var masksB := ParseAll(BetaFields(strings, norb)).value;
      assert ParseBinary(strings[i][norb..]) == Ok(masksA[i]);
      assert ParseBinary(strings[i][..norb]) == Ok(masksB[i]);
      SpinStringRoundTrip(strings[i], norb, nAlpha, nBeta, masksA[i], masksB[i], indices[i]);
  }

  /** A spin pair over zero orbitals renders as two digits, but reading it takes the
      first zero characters as the beta field, and the empty text is not a binary
      literal: the read fails on it. */
  lemma PairOverNoOrbitalsFails(strings: seq<string>, nAlpha: nat, nBeta: nat)
    requires |strings| > 0
    requires forall i :: 0 <= i < |strings| ==>
      StringShape(strings[i], 0, SpinCounts(nAlpha, nBeta)) && IsBinaryText(strings[i])
    ensures StringsToIndices(strings, 0, SpinCounts(nAlpha, nBeta)) == Err(InvalidBinaryLiteral(""))
  {
    var alphas, betas := AlphaFields(strings, 0), BetaFields(strings, 0);
    assert forall i :: 0 <= i < |strings| ==> alphas[i] == strings[i];
    assert forall i :: 0 <= i < |strings| ==> betas[i] == [];
    assert ParseAll(alphas).Ok?;
  }

  /** Entry i of the rendered list is the text of index i. */
  lemma IndicesToStringsAt(indices: seq<nat>, norb: nat, nelec: Nelec, i: nat)
    requires forall k :: 0 <= k < |indices| ==> indices[k] < Dim(norb, nelec)
    requires i < |indices|
    ensures IndicesToStrings(indices, norb, nelec)[i] == IndexString(indices[i], norb, nelec)
  {
  }

  /** A field renders back from the address of the mask it parses to. */
  lemma FieldRoundTrip(field: string, norb: nat, n: nat, m: nat)
    requires |field| == FieldWidth(norb) && ParseBinary(field) == Ok(m) && IsMask(norb, n, m)
    ensures Str2Addr(norb, n, m) < Binomial(norb, n)
    ensures FormatBinary(Addr2Str(norb, n, Str2Addr(norb, n, m)), norb) == field
  {
    Addr2StrOfStr2Addr(norb, n, m);
    if norb == 0 {
      ZeroWidthField();
    }
  }

  /** A zero-width binary format writes the single digit "0", which reads back as 0. */
  lemma ZeroWidthField()
    ensures FormatBinary(0, 0) == "0" && FixedWidth(0, 1) == "0" && ParseBinary("0") == Ok(0)
  {
    assert FixedWidth(0, 1) == FixedWidth(0, 0) + [DigitChar(0)];
    assert FormatBinary(0, 1) == FixedWidth(0, 1);
  }

  /** A spinless string renders back from the address of the mask it parses to. */
  lemma SpinlessStringRoundTrip(s: string, norb: nat, n: nat, m: nat)
    requires |s| == FieldWidth(norb) && ParseBinary(s) == Ok(m) && IsMask(norb, n, m)
    ensures Str2Addr(norb, n, m) < Dim(norb, SpinlessCount(n))
    ensures IndexString(Str2Addr(norb, n, m), norb, SpinlessCount(n)) == s
  {
    FieldRoundTrip(s, norb, n, m);
  }

  /** The text of a combined index is the beta field at its beta address, then the
      alpha field at its alpha address. */
  lemma IndexStringOfSplit(k: nat, norb: nat, nAlpha: nat, nBeta: nat, a: nat, b: nat)
    requires k < Binomial(norb, nAlpha) * Binomial(norb, nBeta)
    requires SplitIndex(k, Binomial(norb, nBeta)) == (a, b)
    ensures a < Binomial(norb, nAlpha) && b < Binomial(norb, nBeta)
    ensures k < Dim(norb, SpinCounts(nAlpha, nBeta))
    ensures IndexString(k, norb, SpinCounts(nAlpha, nBeta))
      == FormatBinary(Addr2Str(norb, nBeta, b), norb) + FormatBinary(Addr2Str(norb, nAlpha, a), norb)
  {
    CombineSplitIndex(Binomial(norb, nAlpha), Binomial(norb, nBeta), k);
  }

  /** A two-field string renders back from the combined index of its two fields' masks. */
  lemma SpinStringRoundTrip(s: string, norb: nat, nAlpha: nat, nBeta: nat, ma: nat, mb: nat, k: nat)
    requires norb >= 1 && |s| == 2 * norb
    requires ParseBinary(s[norb..]) == Ok(ma) && IsMask(norb, nAlpha, ma)
    requires ParseBinary(s[..norb]) == Ok(mb) && IsMask(norb, nBeta, mb)
    requires k < Binomial(norb, nAlpha) * Binomial(norb, nBeta)
    requires SplitIndex(k, Binomial(norb, nBeta)) == (Str2Addr(norb, nAlpha, ma), Str2Addr(norb, nBeta, mb))
    ensures k < Dim(norb, SpinCounts(nAlpha, nBeta))
    ensures IndexString(k, norb, SpinCounts(nAlpha, nBeta)) == s
  {
    IndexStringOfSplit(k, norb, nAlpha, nBeta, Str2Addr(norb, nAlpha, ma), Str2Addr(norb, nBeta, mb));
    FieldRoundTrip(s[norb..], norb, nAlpha, ma);
    FieldRoundTrip(s[..norb], norb, nBeta, mb);
    assert s == s[..norb] + s[norb..];
  }

  /** The docstring example of `indices_to_strings`: norb = 3, nelec = (2, 1), all nine indices. */
  function ThreeOrbitalStrings(): seq<string>
  {
    ["001011", "010011", "100011", "001101", "010101", "100101", "001110", "010110", "100110"]
  }

  /** The beta fields at beta addresses 0, 1, 2 (weight 1) and the alpha fields at
      alpha addresses 0, 1, 2 (weight 2), over three orbitals. */
  function BetaFieldTexts(): seq<string> { ["001", "010", "100"] }

  function AlphaFieldTexts(): seq<string> { ["011", "101", "110"] }

  lemma ThreeOrbitalsExample(indices: seq<nat>)
    requires |indices| == 9 && forall k :: 0 <= k < 9 ==> indices[k] == k
    ensures Dim(3, SpinCounts(2, 1)) == 9
    ensures IndicesToStrings(indices, 3, SpinCounts(2, 1)) == ThreeOrbitalStrings()
  {
    ExampleIndexStrings();
    var r := IndicesToStrings(indices, 3, SpinCounts(2, 1));
    forall k | 0 <= k < 9 ensures r[k] == ThreeOrbitalStrings()[k] {
      IndicesToStringsAt(indices, 3, SpinCounts(2, 1), k);
    }
  }

  /** The docstring example of `strings_to_indices`: the nine strings read back as 0 .. 8. */
  lemma ThreeOrbitalsIndicesExample(indices: seq<nat>)
    requires |indices| == 9 && forall k :: 0 <= k < 9 ==> indices[k] == k
    ensures Dim(3, SpinCounts(2, 1)) == 9
    ensures IndicesToStrings(indices, 3, SpinCounts(2, 1)) == ThreeOrbitalStrings()
    ensures StringsToIndices(IndicesToStrings(indices, 3, SpinCounts(2, 1)), 3, SpinCounts(2, 1))
      == Ok(indices)
  {
    ThreeOrbitalsExample(indices);
    StringsToIndicesOfIndicesToStrings(indices, 3, SpinCounts(2, 1));
  }

  /** Index 3 a + b renders as the beta field at b followed by the alpha field at a. */
  lemma ExampleIndexStrings()
    ensures Dim(3, SpinCounts(2, 1)) == 9
    ensures forall k :: 0 <= k < 9 ==> IndexString(k, 3, SpinCounts(2, 1)) == ThreeOrbitalStrings()[k]
  {
    BetaTexts();
    AlphaTexts();
    forall k | 0 <= k < 9 ensures IndexString(k, 3, SpinCounts(2, 1)) == ThreeOrbitalStrings()[k] {
      ExampleIndexString(k);
    }
  }

  /** One row of the example: index k is the beta field at k % 3, then the alpha field at k / 3. */
  lemma ExampleIndexString(k: nat)
    requires k < 9
    ensures Dim(3, SpinCounts(2, 1)) == 9
    ensures IndexString(k, 3, SpinCounts(2, 1)) == ThreeOrbitalStrings()[k]
  {
    var a, b := k / 3, k % 3;
    ExampleRow(k, a, b);
    BetaTexts();
    AlphaTexts();
    ExampleLayout();
    assert ThreeOrbitalStrings()[k] == BetaFieldTexts()[b] + AlphaFieldTexts()[a];
  }

  lemma ExampleLayout()
    ensures |ThreeOrbitalStrings()| == 9
    ensures forall a, b :: 0 <= a < 3 && 0 <= b < 3 ==>
      ThreeOrbitalStrings()[3 * a + b] == BetaFieldTexts()[b] + AlphaFieldTexts()[a]
  {
  }

  lemma ExampleRow(k: nat, a: nat, b: nat)
    requires a < 3 && b < 3 && k == 3 * a + b
    ensures Dim(3, SpinCounts(2, 1)) == 9
    ensures Binomial(3, 1) == 3 && Binomial(3, 2) == 3
    ensures IndexString(k, 3, SpinCounts(2, 1))
      == FormatBinary(Addr2Str(3, 1, b), 3) + FormatBinary(Addr2Str(3, 2, a), 3)
  {
    assert Binomial(3, 2) == 3 && Binomial(3, 1) == 3;
    SplitCombinedIndex(3, 3, a, b);
  }

  lemma BetaTexts()
    ensures Binomial(3, 1) == 3
    ensures forall b :: 0 <= b < 3 ==> FormatBinary(Addr2Str(3, 1, b), 3) == BetaFieldTexts()[b]
  {
    assert Binomial(3, 1) == 3;
    forall b | 0 <= b < 3 ensures FormatBinary(Addr2Str(3, 1, b), 3) == BetaFieldTexts()[b] {
      BetaText(b);
    }
  }

  lemma BetaText(b: nat)
    requires b < 3
    ensures Binomial(3, 1) == 3 && FormatBinary(Addr2Str(3, 1, b), 3) == BetaFieldTexts()[b]
  {
    if b == 0 {
      BetaText0();
    } else if b == 1 {
      BetaText1();
    } else {
      BetaText2();
    }
  }

  lemma AlphaTexts()
    ensures Binomial(3, 2) == 3
    ensures forall a :: 0 <= a < 3 ==> FormatBinary(Addr2Str(3, 2, a), 3) == AlphaFieldTexts()[a]
  {
    assert Binomial(3, 2) == 3;
    forall a | 0 <= a < 3 ensures FormatBinary(Addr2Str(3, 2, a), 3) == AlphaFieldTexts()[a] {
      AlphaText(a);
    }
  }

  lemma AlphaText(a: nat)
    requires a < 3
    ensures Binomial(3, 2) == 3 && FormatBinary(Addr2Str(3, 2, a), 3) == AlphaFieldTexts()[a]
  {
    if a == 0 {
      AlphaText0();
    } else if a == 1 {
      AlphaText1();
    } else {
      AlphaText2();
    }
  }

  lemma BetaText0()
    ensures Binomial(3, 1) == 3 && FormatBinary(Addr2Str(3, 1, 0), 3) == "001"
  {
    BetaMask0();
    RenderedMasks();
  }

  lemma BetaText1()
    ensures Binomial(3, 1) == 3 && FormatBinary(Addr2Str(3, 1, 1), 3) == "010"
  {
    BetaMask1();
    RenderedMasks();
  }

  lemma BetaText2()
    ensures Binomial(3, 1) == 3 && FormatBinary(Addr2Str(3, 1, 2), 3) == "100"
  {
    BetaMask2();
    RenderedMasks();
  }

  lemma AlphaText0()
    ensures Binomial(3, 2) == 3 && FormatBinary(Addr2Str(3, 2, 0), 3) == "011"
  {
    AlphaMask0();
    RenderedMasks();
  }

  lemma AlphaText1()
    ensures Binomial(3, 2) == 3 && FormatBinary(Addr2Str(3, 2, 1), 3) == "101"
  {
    AlphaMask1();
    RenderedMasks();
  }

  lemma AlphaText2()
    ensures Binomial(3, 2) == 3 && FormatBinary(Addr2Str(3, 2, 2), 3) == "110"
  {
    AlphaMask2();
    RenderedMasks();
  }

  /** Weight-1 masks over three orbitals: one lemma per address. */
  lemma BetaMask0()
    ensures Binomial(3, 1) == 3 && Addr2Str(3, 1, 0) == 1
  {
    assert Binomial(3, 1) == 3;
  }

  lemma BetaMask1()
    ensures Binomial(3, 1) == 3 && Addr2Str(3, 1, 1) == 2
  {
    assert Binomial(3, 1) == 3;
  }

  lemma BetaMask2()
    ensures Binomial(3, 1) == 3 && Addr2Str(3, 1, 2) == 4
  {
    assert Binomial(3, 1) == 3;
  }

  /** Weight-2 masks over three orbitals: one lemma per address. */
  lemma AlphaMask0()
    ensures Binomial(3, 2) == 3 && Addr2Str(3, 2, 0) == 3
  {
    assert Binomial(2, 2) == 1 && Binomial(3, 2) == 3;
    assert Addr2Str(2, 2, 0) == 3;
  }

  lemma AlphaMask1()
    ensures Binomial(3, 2) == 3 && Addr2Str(3, 2, 1) == 5
  {
    assert Binomial(2, 2) == 1 && Binomial(3, 2) == 3 && Binomial(2, 1) == 2;
    assert Addr2Str(2, 1, 0) == 1;
  }

  lemma AlphaMask2()
    ensures Binomial(3, 2) == 3 && Addr2Str(3, 2, 2) == 6
  {
    assert Binomial(2, 2) == 1 && Binomial(3, 2) == 3 && Binomial(2, 1) == 2;
    assert Addr2Str(2, 1, 1) == 2;
  }

  lemma RenderedMasks()
    ensures FormatBinary(1, 3) == "001" && FormatBinary(2, 3) == "010" && FormatBinary(4, 3) == "100"
    ensures FormatBinary(3, 3) == "011" && FormatBinary(5, 3) == "101" && FormatBinary(6, 3) == "110"
  {
    assert BinaryDigits(1) == "1";
    assert BinaryDigits(2) == "10" && BinaryDigits(3) == "11";
    assert BinaryDigits(4) == "100" && BinaryDigits(5) == "101" && BinaryDigits(6) == "110";
  }

  /** With no orbitals a spin pair's vacuum index renders as "00", two digits where
      the field width is zero, and reading "00" back fails on its empty beta field. */
  lemma NoOrbitalsRendering(indices: seq<nat>)
    requires indices == [0]
    ensures Dim(0, SpinCounts(0, 0)) == 1
    ensures IndicesToStrings(indices, 0, SpinCounts(0, 0)) == ["00"]
    ensures StringsToIndices(["00"], 0, SpinCounts(0, 0)) == Err(InvalidBinaryLiteral(""))
  {
    ZeroWidthField();
    assert IndexString(0, 0, SpinCounts(0, 0)) == "00";
    StringsToIndicesOfIndicesToStrings(indices, 0, SpinCounts(0, 0));
  }

  /** With no orbitals and no particles the spinless vacuum renders as "0", and "0"
      reads back as index 0. */
  lemma NoOrbitalsSpinless(indices: seq<nat>)
    requires indices == [0]
    ensures Dim(0, SpinlessCount(0)) == 1
    ensures IndicesToStrings(indices, 0, SpinlessCount(0)) == ["0"]
    ensures StringsToIndices(["0"], 0, SpinlessCount(0)) == Ok([0])
  {
    ZeroWidthField();
    assert IndexString(0, 0, SpinlessCount(0)) == "0";
    StringsToIndicesOfIndicesToStrings(indices, 0, SpinlessCount(0));
  }
}

=== FILE: ci_string.dfy ===
/** The CI string addressing that the code delegates to pyscf's `cistring.str2addr`
    and `cistring.addrs2str`: the weight-n masks over norb orbitals, listed in
    ascending numeric order, are numbered 0, 1, ..., C(norb, n) - 1. */
module CiString {
  import opened Combinatorics
  import opened Bitmask

  /** The address of mask m. The masks whose top bit (orbital norb - 1) is clear
      come first, C(norb - 1, n) of them; the others follow, ordered by their
      lower bits. */
  function Str2Addr(norb: nat, n: nat, m: nat): (a: nat)
    requires IsMask(norb, n, m)
    ensures a < Binomial(norb, n)
  {
    if norb == 0 then 0
    else if m < Pow2(norb - 1) then Str2Addr(norb - 1, n, m)
    else
      PopcountTopBit(norb - 1, m - Pow2(norb - 1));
      Binomial(norb - 1, n) + Str2Addr(norb - 1, n - 1, m - Pow2(norb - 1))
  }

  /** The mask at address a: the inverse of Str2Addr. */
  function Addr2Str(norb: nat, n: nat, a: nat): (m: nat)
    requires a < Binomial(norb, n)
    ensures IsMask(norb, n, m)
  {
    if norb == 0 then 0
    else if a < Binomial(norb - 1, n) then Addr2Str(norb - 1, n, a)
    else
      var low := Addr2Str(norb - 1, n - 1, a - Binomial(norb - 1, n));
      PopcountTopBit(norb - 1, low);
      Pow2(norb - 1) + low
  }

  /** The address of a mask is the number of masks of the same weight numerically below it. */
  lemma {:induction false} Str2AddrCountsSmallerMasks(norb: nat, n: nat, m: nat)
    requires IsMask(norb, n, m)
    ensures Str2Addr(norb, n, m) == CountBelow(n, m)
  {
    if norb > 0 {
      var p := Pow2(norb - 1);
      if m < p {
        Str2AddrCountsSmallerMasks(norb - 1, n, m);
      } else {
        var x := m - p;
        PopcountTopBit(norb - 1, x);
        Str2AddrCountsSmallerMasks(norb - 1, n - 1, x);
        CountBelowUpperHalf(n, norb - 1, x);
      }
    }
  }

  /** Addresses follow the numeric order of the masks. */
  lemma Str2AddrIncreasing(norb: nat, n: nat, m1: nat, m2: nat)
    requires IsMask(norb, n, m1) && IsMask(norb, n, m2)
    ensures m1 < m2 <==> Str2Addr(norb, n, m1) < Str2Addr(norb, n, m2)
  {
    Str2AddrCountsSmallerMasks(norb, n, m1);
    Str2AddrCountsSmallerMasks(norb, n, m2);
    if m1 < m2 {
      CountBelowMonotone(n, m1 + 1, m2);
    } else if m2 < m1 {
      CountBelowMonotone(n, m2 + 1, m1);
    }
  }

  /** Unranking undoes ranking. */
  lemma {:induction false} Addr2StrOfStr2Addr(norb: nat, n: nat, m: nat)
    requires IsMask(norb, n, m)
    ensures Addr2Str(norb, n, Str2Addr(norb, n, m)) == m
  {
    if norb > 0 {
      var p := Pow2(norb - 1);
      assert Pow2(norb) == 2 * p;
      if m < p {
        Addr2StrOfStr2Addr(norb - 1, n, m);
      } else {
        var x := m - p;
        assert m == p + x && x < p;
        PopcountTopBit(norb - 1, x);
        assert n >= 1 && IsMask(norb - 1, n - 1, x);
        var a := Str2Addr(norb - 1, n - 1, x);
        assert Str2Addr(norb, n, m) == Binomial(norb - 1, n) + a;
        Addr2StrOfStr2Addr(norb - 1, n - 1, x);
      }
    }
  }

  /** Ranking undoes unranking. */
  lemma {:induction false} Str2AddrOfAddr2Str(norb: nat, n: nat, a: nat)
    requires a < Binomial(norb, n)
    ensures Str2Addr(norb, n, Addr2Str(norb, n, a)) == a
  {
    if norb > 0 {
      if a < Binomial(norb - 1, n) {
        Str2AddrOfAddr2Str(norb - 1, n, a);
      } else {
        Str2AddrOfAddr2Str(norb - 1, n - 1, a - Binomial(norb - 1, n));
      }
    }
  }

  /** Address 0 holds the lowest mask: orbitals 0 .. n-1 occupied. */
  lemma LowestMaskHasAddressZero(norb: nat, n: nat)
    requires n <= norb
    ensures Binomial(norb, n) > 0
    ensures Addr2Str(norb, n, 0) == Pow2(n) - 1
    ensures IsMask(norb, n, Pow2(n) - 1) && Str2Addr(norb, n, Pow2(n) - 1) == 0
  {
    LowestMaskAtAddressZero(norb, n);
    Str2AddrOfAddr2Str(norb, n, 0);
  }

  lemma {:induction false} LowestMaskAtAddressZero(norb: nat, n: nat)
    requires n <= norb
    ensures Binomial(norb, n) > 0 && Addr2Str(norb, n, 0) == Pow2(n) - 1
  {
    BinomialPositive(norb, n);
    if norb > 0 {
      if n < norb {
        BinomialPositive(norb - 1, n);
        LowestMaskAtAddressZero(norb - 1, n);
      } else {
        BinomialAboveIsZero(norb - 1, n);
        LowestMaskAtAddressZero(norb - 1, n - 1);
      }
    }
  }

  /** Two electrons in three orbitals: 0b011, 0b101, 0b110 get addresses 0, 1, 2. */
  lemma ThreeOrbitalsTwoParticles()
    ensures IsMask(3, 2, 3) && IsMask(3, 2, 5) && IsMask(3, 2, 6)
    ensures Str2Addr(3, 2, 3) == 0 && Str2Addr(3, 2, 5) == 1 && Str2Addr(3, 2, 6) == 2
  {
  }
}

=== FILE: combinatorics.dfy ===
/** Binomial coefficients (Python's `math.comb`) and powers of two. */
module Combinatorics {

  /** `math.comb(n, k)`: the number of k-element subsets of an n-element set, 0 when k > n. */
  function Binomial(n: nat, k: nat): nat
  {
    if k == 0 then 1
    else if n == 0 then 0
    else Binomial(n - 1, k - 1) + Binomial(n - 1, k)
  }

  function Factorial(n: nat): nat
  {
    if n == 0 then 1 else n * Factorial(n - 1)
  }

  function Pow2(k: nat): nat
  {
    if k == 0 then 1 else 2 * Pow2(k - 1)
  }

  /** Dividing 2q + b by two, for a bit b. */
  lemma Halve(q: int, b: int)
    requires 0 <= b < 2
    ensures (2 * q + b) % 2 == b && (2 * q + b) / 2 == q
  {
  }

  lemma {:induction false} Pow2Positive(k: nat)
    ensures Pow2(k) >= 1
  {
    if k > 0 {
      Pow2Positive(k - 1);
    }
  }

  /** More elements requested than available: no subsets. */
  lemma {:induction false} BinomialAboveIsZero(n: nat, k: nat)
    requires k > n
    ensures Binomial(n, k) == 0
  {
    if n > 0 {
      BinomialAboveIsZero(n - 1, k - 1);
      BinomialAboveIsZero(n - 1, k);
    }
  }

  lemma {:induction false} BinomialPositive(n: nat, k: nat)
    requires k <= n
    ensures Binomial(n, k) >= 1
  {
    if k > 0 {
      BinomialPositive(n - 1, k - 1);
    }
  }

  lemma {:induction false} BinomialAll(n: nat)
    ensures Binomial(n, n) == 1
  {
    if n > 0 {
      BinomialAll(n - 1);
      BinomialAboveIsZero(n - 1, n);
    }
  }

  lemma {:induction false} FactorialPositive(n: nat)
    ensures Factorial(n) >= 1
  {
    if n > 0 {
      FactorialPositive(n - 1);
    }
  }

  /** The arithmetic of one Pascal step of the closed form, with the factorials abstracted. */
  lemma PascalStep(a: int, b: int, n: int, k: int, fk1: int, fnk1: int, f: int)
    requires 0 < k < n
    requires a * fk1 * ((n - k) * fnk1) == f
    requires b * (k * fk1) * fnk1 == f
    ensures (a + b) * (k * fk1) * ((n - k) * fnk1) == n * f
  {
    var x := a * fk1 * ((n - k) * fnk1);
    var y := b * (k * fk1) * fnk1;
    assert (a + b) * (k * fk1) * ((n - k) * fnk1)
        == k * (a * fk1 * ((n - k) * fnk1)) + (n - k) * (b * (k * fk1) * fnk1);
    assert k * x + (n - k) * y == n * f;
  }

  /** The recursive definition agrees with the closed form n! / (k! (n-k)!) that
      `math.comb` documents, so the dimension of an FCI sector is the textbook count. */
  lemma {:induction false} BinomialFactorial(n: nat, k: nat)
    ensures k <= n ==> Binomial(n, k) * Factorial(k) * Factorial(n - k) == Factorial(n)
    ensures k > n ==> Binomial(n, k) == 0
  {
    if k > n {
      BinomialAboveIsZero(n, k);
    } else if k == 0 {
    } else if k == n {
      BinomialAll(n);
    } else {
      BinomialFactorial(n - 1, k - 1);
      BinomialFactorial(n - 1, k);
      PascalStep(Binomial(n - 1, k - 1), Binomial(n - 1, k), n, k,
                 Factorial(k - 1), Factorial(n - 1 - k), Factorial(n - 1));
    }
  }
}

=== FILE: fci_space.dfy ===
/** FCI space dimensions and the combined alpha-beta index
    (`dims`, `dim`, and the `addr_a * dim_b + addr_b` convention). */
module FciSpace {
  import opened Combinatorics
  import opened Bitmask

  /** The `nelec` argument: one particle count (spinless) or an (alpha, beta) pair. */
  datatype Nelec = SpinlessCount(n: nat) | SpinCounts(alpha: nat, beta: nat)

  /** `dims(norb, (n_alpha, n_beta))`: each component is the number of occupation
      masks of that sector's weight over norb orbitals. */
  function Dims(norb: nat, nAlpha: nat, nBeta: nat): (d: (nat, nat))
    ensures d.0 == CountBelow(nAlpha, Pow2(norb))
    ensures d.1 == CountBelow(nBeta, Pow2(norb))
  {
    CountBelowPow2(nAlpha, norb);
    CountBelowPow2(nBeta, norb);
    (Binomial(norb, nAlpha), Binomial(norb, nBeta))
  }

  /** `dim(norb, nelec)`: the product of the two sector dimensions, or the number of
      masks of weight n for a spinless count. */
  function Dim(norb: nat, nelec: Nelec): (d: nat)
    ensures nelec.SpinCounts? ==>
      d == Dims(norb, nelec.alpha, nelec.beta).0 * Dims(norb, nelec.alpha, nelec.beta).1
    ensures nelec.SpinlessCount? ==> d == CountBelow(nelec.n, Pow2(norb))
  {
    match nelec
    case SpinlessCount(n) =>
      CountBelowPow2(n, norb);
      Binomial(norb, n)
    case SpinCounts(nAlpha, nBeta) => Binomial(norb, nAlpha) * Binomial(norb, nBeta)
  }

  /** A spinless count n spans the same space as n alpha and no beta particles. */
  lemma SpinlessIsAlphaOnly(norb: nat, n: nat)
    ensures Dim(norb, SpinlessCount(n)) == Dim(norb, SpinCounts(n, 0))
  {
  }

  /** The vacuum: zero orbitals hold one state, the empty configuration, when no particles are asked for. */
  lemma NoOrbitals(nelec: Nelec)
    ensures Dim(0, nelec) == (if nelec == SpinlessCount(0) || nelec == SpinCounts(0, 0) then 1 else 0)
  {
  }

  /** Row-major position of (addrA, addrB) in a dimA x dimB array. */
  function CombinedIndex(addrA: nat, addrB: nat, dimB: nat): nat
  {
    addrA * dimB + addrB
  }

  /** Quotient and remainder of the index by the beta dimension. */
  function SplitIndex(index: nat, dimB: nat): (nat, nat)
    requires dimB > 0
  {
    (index / dimB, index % dimB)
  }

  /** Euclidean division has unique quotient and remainder. */
  lemma DivModUnique(k: int, d: int, q: int, r: int)
    requires d > 0 && 0 <= r < d && k == q * d + r
    ensures k / d == q && k % d == r
  {
    var q' := k / d;
    var r' := k % d;
    assert k == q' * d + r';
    assert (q - q') * d == r' - r;
    if q > q' {
      assert (q - q') * d >= d by { MulAtLeast(q - q', d); }
    } else if q < q' {
      assert (q' - q) * d >= d by { MulAtLeast(q' - q, d); }
    }
  }

  lemma MulAtLeast(a: int, d: int)
    requires a >= 1 && d > 0
    ensures a * d >= d
  {
  }

  /** Splitting undoes combining, and a combined index lies in [0, dimA * dimB). */
  lemma SplitCombinedIndex(dimA: nat, dimB: nat, addrA: nat, addrB: nat)
    requires addrA < dimA && addrB < dimB
    ensures CombinedIndex(addrA, addrB, dimB) < dimA * dimB
    ensures SplitIndex(CombinedIndex(addrA, addrB, dimB), dimB) == (addrA, addrB)
  {
    DivModUnique(addrA * dimB + addrB, dimB, addrA, addrB);
    assert (addrA + 1) * dimB <= dimA * dimB by { MulMonotone(addrA + 1, dimA, dimB); }
  }

  lemma MulMonotone(a: nat, b: nat, c: nat)
    requires a <= b
    ensures a * c <= b * c
  {
  }

  /** Combining undoes splitting, and every index below dimA * dimB splits into
      in-range addresses. */
  lemma CombineSplitIndex(dimA: nat, dimB: nat, index: nat)
    requires index < dimA * dimB
    ensures dimB > 0
    ensures SplitIndex(index, dimB).0 < dimA && SplitIndex(index, dimB).1 < dimB
    ensures CombinedIndex(SplitIndex(index, dimB).0, SplitIndex(index, dimB).1, dimB) == index
  {
    var q := index / dimB;
    if q >= dimA {
      MulMonotone(dimA, q, dimB);
    }
  }
}

=== FILE: legacy_states.dfy ===
/** The earlier module `python/ffsim/states.py`: `slater_determinant` and
    `slater_determinant_one_rdm` as they are written there, side by side with the
    current definitions they were replaced by. */
module LegacyStates {
  import opened Combinatorics
  import opened BinaryText
  import opened CiString
  import opened Occupation
  import opened FciSpace
  import opened Arrays
  import opened States
  import opened Wrappers

  /** `slater_determinant(norb, (alpha, beta))` of the earlier module. The mask is read
      back with `int(text, 2)` and nothing guards `norb == 0`, so the empty text of the
      vacuum is refused the way `int("", 2)` refuses it. */
  function LegacySlaterDeterminant(norb: nat, alpha: seq<nat>, beta: seq<nat>)
    : (r: Result<Vector, Failure>)
    requires ValidSector(norb, alpha) && ValidSector(norb, beta)
    ensures r.Err? <==> norb == 0
    ensures r.Err? ==> r.error == InvalidBinaryLiteral("")
    ensures r.Ok? ==> |r.value| == Dim(norb, SpinCounts(|alpha|, |beta|)) && Sum(r.value) == 1
  {
    var dim1 := Binomial(norb, |alpha|);
    var dim2 := Binomial(norb, |beta|);
    OccupationStringIsBinary(norb, alpha);
    OccupationStringIsBinary(norb, beta);
    match ParseBinary(OccupationString(norb, alpha))
    case Err(e) => Err(e)
    case Ok(alphaString) =>
      (match ParseBinary(OccupationString(norb, beta))
       case Err(e) => Err(e)
       case Ok(betaString) =>
         assert alphaString == OccupationMask(norb, alpha);
         assert betaString == OccupationMask(norb, beta);
         var alphaIndex := Str2Addr(norb, |alpha|, alphaString);
         var betaIndex := Str2Addr(norb, |beta|, betaString);
         FlattenOneHotMatrix(dim1, dim2, alphaIndex, betaIndex);
         OneHotSum(dim1 * dim2, CombinedIndex(alphaIndex, betaIndex, dim2));
         Ok(Flatten(OneHotMatrix(dim1, dim2, alphaIndex, betaIndex))))
  }

  /** With at least one orbital the earlier function agrees with the current one. */
  lemma LegacyMatchesSlaterDeterminant(norb: nat, alpha: seq<nat>, beta: seq<nat>)
    requires norb >= 1 && ValidSector(norb, alpha) && ValidSector(norb, beta)
    ensures LegacySlaterDeterminant(norb, alpha, beta)
      == Ok(SlaterDeterminant(norb, SpinOrbitals(alpha, beta)))
  {
  }

  /** The vacuum: the earlier function raises on `int("", 2)` where the current one
      returns the one-entry vector [1]. */
  lemma LegacyVacuumRefused()
    ensures LegacySlaterDeterminant(0, [], []) == Err(InvalidBinaryLiteral(""))
    ensures SlaterDeterminant(0, SpinOrbitals([], [])) == [1]
  {
  }

  /** The beta orbitals shifted past the alpha block, each increased by norb. */
  function Shift(orbs: seq<nat>, offset: nat): (r: seq<nat>)
    ensures |r| == |orbs|
    ensures forall p :: p in r <==> p >= offset && p - offset in orbs
  {
    var r := seq(|orbs|, i requires 0 <= i < |orbs| => orbs[i] + offset);
    assert forall i :: 0 <= i < |orbs| ==> r[i] == orbs[i] + offset;
    r
  }

  /** The spin-orbital one-particle density matrix with both diagonal assignments applied:
      a 2 norb x 2 norb diagonal of occupation numbers, alpha orbitals first. */
  function OneRdm(norb: nat, alpha: seq<nat>, beta: seq<nat>): (m: Matrix)
    requires InRange(norb, alpha) && InRange(norb, beta)
    ensures IsMatrix(m, 2 * norb, 2 * norb)
    ensures forall p, q :: 0 <= p < 2 * norb && 0 <= q < 2 * norb ==>
      m[p][q] == (if p == q then SpinOrbitalOccupation(norb, alpha, beta, p) else 0)
  {
    var shifted := Shift(beta, norb);
    SetDiagonal(SetDiagonal(ZeroMatrix(2 * norb), 2 * norb, alpha), 2 * norb, shifted)
  }

  /** `slater_determinant_one_rdm(norb, (alpha, beta))` of the earlier module. An empty
      list becomes `np.array([])`, whose dtype is float64, and numpy refuses a float
      array as an index, so either sector being empty raises. */
  function LegacyOneRdm(norb: nat, alpha: seq<nat>, beta: seq<nat>)
    : (r: Result<Matrix, Failure>)
    requires InRange(norb, alpha) && InRange(norb, beta)
    ensures r.Err? <==> |alpha| == 0 || |beta| == 0
    ensures r.Err? ==> r.error == NonIntegerIndexArray
    ensures r.Ok? ==> r.value == OneRdm(norb, alpha, beta)
  {
    if |alpha| == 0 || |beta| == 0 then Err(NonIntegerIndexArray)
    else Ok(OneRdm(norb, alpha, beta))
  }

  /** The spin-orbital density matrix equals the current rank-1, spin-resolved one. */
  lemma OneRdmMatchesRdm(norb: nat, alpha: seq<nat>, beta: seq<nat>)
    requires InRange(norb, alpha) && InRange(norb, beta)
    ensures SlaterDeterminantRdm(norb, alpha, beta, 1, false).Ok?
    ensures OneRdm(norb, alpha, beta) == SlaterDeterminantRdm(norb, alpha, beta, 1, false).value
  {
    MatrixExtensional(OneRdm(norb, alpha, beta),
                      SlaterDeterminantRdm(norb, alpha, beta, 1, false).value, 2 * norb, 2 * norb);
  }

  /** For duplicate-free occupations the spin-orbital density matrix has 0/1 entries
      and trace `len(alpha) + len(beta)`. */
  lemma OneRdmTrace(norb: nat, alpha: seq<nat>, beta: seq<nat>)
    requires ValidSector(norb, alpha) && ValidSector(norb, beta)
    ensures Trace(OneRdm(norb, alpha, beta), 2 * norb) == |alpha| + |beta|
    ensures forall p, q :: 0 <= p < 2 * norb && 0 <= q < 2 * norb ==>
      OneRdm(norb, alpha, beta)[p][q] == 0 || OneRdm(norb, alpha, beta)[p][q] == 1
  {
    OneRdmMatchesRdm(norb, alpha, beta);
    RdmTrace(norb, alpha, beta, false);
  }

  /** A single alpha electron in one orbital: the earlier function raises on the empty
      beta list, while the density matrix it means to build is [[1, 0], [0, 0]]. */
  lemma EmptyBetaRefused()
    ensures LegacyOneRdm(1, [0], []) == Err(NonIntegerIndexArray)
    ensures OneRdm(1, [0], []) == [[1, 0], [0, 0]]
  {
    var m := OneRdm(1, [0], []);
    assert m[0][0] == 1 && m[0][1] == 0 && m[1][0] == 0 && m[1][1] == 0;
    assert m[0] == [1, 0] && m[1] == [0, 0];
  }
}

=== FILE: occupation.dfy ===
/** Occupied-orbital lists and the bitmask integers built from them
    (`python/ffsim/states/states.py`, `slater_determinant`). */
module Occupation {
  import opened Combinatorics
  import opened Bitmask
  import opened BinaryText
  import opened Wrappers

  /** The `occupied_orbitals` argument: a flat list of orbitals or an (alpha, beta) pair. */
  datatype Occupations =
    | SpinlessOrbitals(orbitals: seq<nat>)
    | SpinOrbitals(alpha: seq<nat>, beta: seq<nat>)

  /** A flat list, empty or not, is the alpha list with no beta orbitals. */
  function Sectors(occ: Occupations): (seq<nat>, seq<nat>)
  {
    match occ
    case SpinlessOrbitals(orbs) => (orbs, [])
    case SpinOrbitals(alpha, beta) => (alpha, beta)
  }

  predicate InRange(norb: nat, orbs: seq<nat>)
  {
    forall i :: 0 <= i < |orbs| ==> orbs[i] < norb
  }

  predicate Distinct(orbs: seq<nat>)
  {
    forall i, j :: 0 <= i < j < |orbs| ==> orbs[i] != orbs[j]
  }

  /** What the callers must supply, since the code checks neither range nor duplicates. */
  predicate ValidSector(norb: nat, orbs: seq<nat>)
  {
    InRange(norb, orbs) && Distinct(orbs)
  }

  predicate ValidOccupations(norb: nat, occ: Occupations)
  {
    ValidSector(norb, Sectors(occ).0) && ValidSector(norb, Sectors(occ).1)
  }

  /** One flag per orbital, set exactly when the orbital is listed
      (python/ffsim/states/states.py:163-164 and 167-168). */
  function OccupationBits(norb: nat, orbs: seq<nat>): seq<bool>
  {
    seq(norb, i => i in orbs)
  }

  /** The flags as '0'/'1' text, highest orbital first, so orbital 0 is the last character
      (python/ffsim/states/states.py:165 and 169). */
  function BitString(bits: seq<bool>): string
  {
    seq(|bits|, j requires 0 <= j < |bits| => if bits[|bits| - 1 - j] then '1' else '0')
  }

  function OccupationString(norb: nat, orbs: seq<nat>): string
  {
    BitString(OccupationBits(norb, orbs))
  }

  lemma {:induction false} CountOnesOfZeros(k: nat)
    ensures CountOnes(Zeros(k)) == 0
  {
    if k > 0 {
      assert Zeros(k)[..k - 1] == Zeros(k - 1);
      CountOnesOfZeros(k - 1);
    }
  }

  /** Turning one '0' into '1' adds one to the count. */
  lemma {:induction false} CountOnesSet(s: string, j: nat)
    requires j < |s| && s[j] == '0'
    ensures CountOnes(s[j := '1']) == CountOnes(s) + 1
  {
    var t := s[j := '1'];
    if j < |s| - 1 {
      assert t[..|t| - 1] == s[..|s| - 1][j := '1'];
      CountOnesSet(s[..|s| - 1], j);
    } else {
      assert t[..|t| - 1] == s[..|s| - 1];
    }
  }

  /** A duplicate-free, in-range list sets exactly as many bits as it has entries. */
  lemma {:induction false} OccupationStringWeight(norb: nat, orbs: seq<nat>)
    requires ValidSector(norb, orbs)
    ensures CountOnes(OccupationString(norb, orbs)) == |orbs|
  {
    if |orbs| == 0 {
      assert OccupationString(norb, orbs) == Zeros(norb);
      CountOnesOfZeros(norb);
    } else {
      var rest := orbs[..|orbs| - 1];
      var o := orbs[|orbs| - 1];
      assert orbs == rest + [o];
      LastNotInPrefix(orbs);
      assert ValidSector(norb, rest);
      OccupationStringWeight(norb, rest);
      var s := OccupationString(norb, rest);
      OccupationStringAdd(norb, rest, o);
      CountOnesSet(s, norb - 1 - o);
    }
  }

  /** Listing one more orbital o sets the character for o. */
  lemma OccupationStringAdd(norb: nat, rest: seq<nat>, o: nat)
    requires o < norb
    ensures OccupationString(norb, rest + [o])
            == OccupationString(norb, rest)[norb - 1 - o := '1']
  {
    var s := OccupationString(norb, rest);
    var t := OccupationString(norb, rest + [o]);
    assert |t| == |s| == norb;
    forall j | 0 <= j < norb
      ensures t[j] == s[norb - 1 - o := '1'][j]
    {
      var i := norb - 1 - j;
      assert (i in rest + [o]) <==> (i in rest || i == o);
    }
  }

  lemma LastNotInPrefix(orbs: seq<nat>)
    requires |orbs| > 0 && Distinct(orbs)
    ensures orbs[|orbs| - 1] !in orbs[..|orbs| - 1]
  {
  }

  lemma OccupationStringIsBinary(norb: nat, orbs: seq<nat>)
    ensures |OccupationString(norb, orbs)| == norb
    ensures IsBinaryText(OccupationString(norb, orbs))
  {
  }

  /** The integer `int(OccupationString(...), 2)` passed to the addressing. Bit i is set
      exactly when orbital i is listed, and the weight is the number of orbitals listed. */
  function OccupationMask(norb: nat, orbs: seq<nat>): (m: nat)
    requires norb >= 1 && ValidSector(norb, orbs)
    ensures IsMask(norb, |orbs|, m)
    ensures forall i :: 0 <= i < norb ==> (Bit(m, i) <==> i in orbs)
    ensures ParseBinary(OccupationString(norb, orbs)) == Ok(m)
  {
    OccupationStringIsBinary(norb, orbs);
    OccupationStringWeight(norb, orbs);
    ParseBinary(OccupationString(norb, orbs)).value
  }

  /** `range(n)`. */
  function Range(n: nat): (r: seq<nat>)
    ensures |r| == n && forall i :: 0 <= i < n ==> r[i] == i
  {
    seq(n, i => i)
  }

  /** 2^n - 1: the lowest n bits set. */
  function LowMask(n: nat): (m: nat)
    ensures m == Pow2(n) - 1
  {
    if n == 0 then 0 else 2 * LowMask(n - 1) + 1
  }

  /** The lowest orbitals 0 .. n-1 make the mask 2^n - 1. */
  lemma LowestOrbitalsMask(norb: nat, n: nat)
    requires 1 <= norb && n <= norb
    ensures ValidSector(norb, Range(n))
    ensures OccupationMask(norb, Range(n)) == LowMask(n)
  {
    var r := Range(n);
    assert forall i :: 0 <= i < norb ==> (i in r <==> i < n) by {
      forall i | 0 <= i < norb
        ensures i in r <==> i < n
      {
        if i < n {
          assert r[i] == i;
        }
      }
    }
    var m := OccupationMask(norb, r);
    LowMaskBits(n, norb);
    MaskBitsExtensional(norb, m, LowMask(n));
  }

  /** The bits of 2^n - 1 are exactly those below n. */
  lemma {:induction false} LowMaskBits(n: nat, norb: nat)
    requires n <= norb
    ensures LowMask(n) < Pow2(norb)
    ensures forall i :: 0 <= i < norb ==> (Bit(LowMask(n), i) <==> i < n)
  {
    Pow2Positive(norb);
    if n > 0 {
      LowMaskBits(n - 1, norb - 1);
      var v := LowMask(n);
      Halve(LowMask(n - 1), 1);
      assert v % 2 == 1 && v / 2 == LowMask(n - 1);
      forall i | 0 <= i < norb
        ensures Bit(v, i) <==> i < n
      {
        if i > 0 {
          assert Bit(v, i) == Bit(LowMask(n - 1), i - 1);
        }
      }
    } else {
      forall i | 0 <= i < norb
        ensures !Bit(0, i)
      {
        ZeroHasNoBits(i);
      }
    }
    if n < norb {
      Pow2Grows(n, norb);
    }
  }

  lemma {:induction false} ZeroHasNoBits(i: nat)
    ensures !Bit(0, i)
  {
    if i > 0 {
      ZeroHasNoBits(i - 1);
    }
  }

  lemma {:induction false} Pow2Grows(a: nat, b: nat)
    requires a <= b
    ensures Pow2(a) <= Pow2(b)
  {
    if a < b {
      Pow2Grows(a, b - 1);
    }
  }

  /** Two norb-bit masks with the same bits are equal. */
  lemma {:induction false} MaskBitsExtensional(norb: nat, x: nat, y: nat)
    requires x < Pow2(norb) && y < Pow2(norb)
    requires forall i :: 0 <= i < norb ==> (Bit(x, i) <==> Bit(y, i))
    ensures x == y
  {
    if norb > 0 {
      assert Bit(x, 0) <==> Bit(y, 0);
      forall i | 0 <= i < norb - 1
        ensures Bit(x / 2, i) <==> Bit(y / 2, i)
      {
        assert Bit(x, i + 1) == Bit(x / 2, i);
        assert Bit(y, i + 1) == Bit(y / 2, i);
      }
      MaskBitsExtensional(norb - 1, x / 2, y / 2);
    }
  }
}

=== FILE: states.dfy ===
/** Slater determinants, the Hartree-Fock state and the one-particle reduced density
    matrix of a determinant, without orbital rotation (`python/ffsim/states/states.py`). */
module States {
  import opened Combinatorics
  import opened CiString
  import opened Occupation
  import opened FciSpace
  import opened Arrays
  import opened Wrappers

  /** `(len(alpha_orbitals), len(beta_orbitals))` after the flat-list rule. */
  function NelecOf(occ: Occupations): Nelec
  {
    SpinCounts(|Sectors(occ).0|, |Sectors(occ).1|)
  }

  /** `cistring.str2addr(norb, len(orbs), mask)`: the sector address of an occupation. */
  function SectorAddress(norb: nat, orbs: seq<nat>): (a: nat)
    requires norb >= 1 && ValidSector(norb, orbs)
    ensures a < Binomial(norb, |orbs|)
    ensures Addr2Str(norb, |orbs|, a) == OccupationMask(norb, orbs)
  {
    var m := OccupationMask(norb, orbs);
    Addr2StrOfStr2Addr(norb, |orbs|, m);
    Str2Addr(norb, |orbs|, m)
  }

  /** The pair of occupation masks that combined index k stands for. */
  function Configuration(norb: nat, nAlpha: nat, nBeta: nat, k: nat): (nat, nat)
    requires k < Binomial(norb, nAlpha) * Binomial(norb, nBeta)
  {
    var dimB := Binomial(norb, nBeta);
    CombineSplitIndex(Binomial(norb, nAlpha), dimB, k);
    (Addr2Str(norb, nAlpha, k / dimB), Addr2Str(norb, nBeta, k % dimB))
  }

  /** `slater_determinant(norb, occupied_orbitals)` with no orbital rotation: the vacuum
      `[1]` when there are no orbitals, otherwise a 0/1 vector over the FCI space whose
      entries sum to 1, i.e. a single basis state. */
  function SlaterDeterminant(norb: nat, occ: Occupations): (v: Vector)
    requires norb == 0 || ValidOccupations(norb, occ)
    ensures norb == 0 ==> v == [1]
    ensures norb > 0 ==> |v| == Dim(norb, NelecOf(occ))
    ensures forall k :: 0 <= k < |v| ==> v[k] == 0 || v[k] == 1
    ensures Sum(v) == 1
  {
    if norb == 0 then [1]
    else
      var (alpha, beta) := Sectors(occ);
      var (dim1, dim2) := Dims(norb, |alpha|, |beta|);
      var addrA := SectorAddress(norb, alpha);
      var addrB := SectorAddress(norb, beta);
      FlattenOneHotMatrix(dim1, dim2, addrA, addrB);
      OneHotSum(dim1 * dim2, CombinedIndex(addrA, addrB, dim2));
      Flatten(OneHotMatrix(dim1, dim2, addrA, addrB))
  }

  /** The single 1 sits at `addr_a * dim_b + addr_b`. */
  lemma SlaterDeterminantIndex(norb: nat, occ: Occupations)
    requires norb >= 1 && ValidOccupations(norb, occ)
    ensures var (alpha, beta) := Sectors(occ);
      var index := CombinedIndex(SectorAddress(norb, alpha), SectorAddress(norb, beta),
                                 Binomial(norb, |beta|));
      index < |SlaterDeterminant(norb, occ)| &&
      SlaterDeterminant(norb, occ) == OneHot(|SlaterDeterminant(norb, occ)|, index)
  {
    var (alpha, beta) := Sectors(occ);
    FlattenOneHotMatrix(Binomial(norb, |alpha|), Binomial(norb, |beta|),
                        SectorAddress(norb, alpha), SectorAddress(norb, beta));
  }

  /** Entry k of the determinant is 1 exactly when index k decodes to the listed
      occupations: its alpha and beta masks have bit i set iff orbital i is listed. */
  lemma SlaterDeterminantDecodes(norb: nat, occ: Occupations, k: nat)
    requires norb >= 1 && ValidOccupations(norb, occ)
    requires k < |SlaterDeterminant(norb, occ)|
    ensures var (alpha, beta) := Sectors(occ);
      k < Binomial(norb, |alpha|) * Binomial(norb, |beta|) &&
      (SlaterDeterminant(norb, occ)[k] == 1 <==>
        Configuration(norb, |alpha|, |beta|, k)
          == (OccupationMask(norb, alpha), OccupationMask(norb, beta)))
  {
    var (alpha, beta) := Sectors(occ);
    var na, nb := |alpha|, |beta|;
    var dimA, dimB := Binomial(norb, na), Binomial(norb, nb);
    var addrA, addrB := SectorAddress(norb, alpha), SectorAddress(norb, beta);
    SlaterDeterminantIndex(norb, occ);
    var index := CombinedIndex(addrA, addrB, dimB);
    CombineSplitIndex(dimA, dimB, k);
    SplitCombinedIndex(dimA, dimB, addrA, addrB);
    var (ka, kb) := (k / dimB, k % dimB);
    if Configuration(norb, na, nb, k) == (OccupationMask(norb, alpha), OccupationMask(norb, beta)) {
      Str2AddrOfAddr2Str(norb, na, ka);
      Str2AddrOfAddr2Str(norb, nb, kb);
      Str2AddrOfAddr2Str(norb, na, addrA);
      Str2AddrOfAddr2Str(norb, nb, addrB);
      assert k == index;
    }
  }

  /** `hartree_fock_state(norb, nelec)`: the determinant with the lowest orbitals
      occupied in each sector, which is the basis state at index 0. */
  function HartreeFockState(norb: nat, nelec: Nelec): (v: Vector)
    requires norb == 0 || (match nelec
                           case SpinlessCount(n) => n <= norb
                           case SpinCounts(nAlpha, nBeta) => nAlpha <= norb && nBeta <= norb)
    ensures |v| == (if norb == 0 then 1 else Dim(norb, nelec))
    ensures |v| > 0 && v == OneHot(|v|, 0)
  {
    match nelec
    case SpinlessCount(n) =>
      var occ := SpinlessOrbitals(Range(n));
      LowestOccupationAtZero(norb, occ);
      SlaterDeterminant(norb, occ)
    case SpinCounts(nAlpha, nBeta) =>
      var occ := SpinOrbitals(Range(nAlpha), Range(nBeta));
      LowestOccupationAtZero(norb, occ);
      SlaterDeterminant(norb, occ)
  }

  /** Occupying orbitals 0 .. n-1 in each sector puts the 1 at index 0. */
  lemma LowestOccupationAtZero(norb: nat, occ: Occupations)
    requires Sectors(occ) == (Range(|Sectors(occ).0|), Range(|Sectors(occ).1|))
    requires norb == 0 || (|Sectors(occ).0| <= norb && |Sectors(occ).1| <= norb)
    ensures norb == 0 || ValidOccupations(norb, occ)
    ensures |SlaterDeterminant(norb, occ)| > 0
    ensures SlaterDeterminant(norb, occ) == OneHot(|SlaterDeterminant(norb, occ)|, 0)
  {
    if norb > 0 {
      var (alpha, beta) := Sectors(occ);
      LowestSectorAddress(norb, |alpha|);
      LowestSectorAddress(norb, |beta|);
      assert ValidOccupations(norb, occ);
      SlaterDeterminantIndex(norb, occ);
      assert CombinedIndex(0, 0, Binomial(norb, |beta|)) == 0;
    }
  }

  /** The lowest n orbitals have sector address 0. */
  lemma LowestSectorAddress(norb: nat, n: nat)
    requires 1 <= norb && n <= norb
    ensures ValidSector(norb, Range(n)) && SectorAddress(norb, Range(n)) == 0
  {
    LowestOrbitalsMask(norb, n);
    LowestMaskHasAddressZero(norb, n);
  }

  /** 1 for an occupied orbital, 0 otherwise. */
  function Indicator(b: bool): int
  {
    if b then 1 else 0
  }

  /** The diagonal of a sector's density matrix: the occupation number of each orbital. */
  function OccupationNumbers(norb: nat, orbs: seq<nat>): (v: Vector)
    ensures |v| == norb
  {
    seq(norb, p => Indicator(p in orbs))
  }

  /** Occupation number of spin-orbital p, alpha orbitals first, then beta. */
  function SpinOrbitalOccupation(norb: nat, alpha: seq<nat>, beta: seq<nat>, p: nat): int
  {
    if p < norb then Indicator(p in alpha) else Indicator(p - norb in beta)
  }

  /** The occupation numbers of a duplicate-free, in-range list add up to its length. */
  lemma {:induction false} OccupationNumbersSum(norb: nat, orbs: seq<nat>)
    requires ValidSector(norb, orbs)
    ensures Sum(OccupationNumbers(norb, orbs)) == |orbs|
  {
    if |orbs| == 0 {
      assert OccupationNumbers(norb, orbs) == ZeroVector(norb);
      SumOfZeros(norb);
    } else {
      var rest := orbs[..|orbs| - 1];
      var o := orbs[|orbs| - 1];
      assert orbs == rest + [o];
      LastNotInPrefix(orbs);
      OccupationNumbersSum(norb, rest);
      var v := OccupationNumbers(norb, rest);
      forall p | 0 <= p < norb
        ensures OccupationNumbers(norb, orbs)[p] == v[o := 1][p]
      {
        assert (p in rest + [o]) <==> (p in rest || p == o);
      }
      assert OccupationNumbers(norb, orbs) == v[o := 1];
      SumUpdate(v, o, 1);
    }
  }

  /** One sector's density matrix: zeros with 1 on the diagonal at each listed orbital; the
      assignment is skipped for an empty list. */
  function SectorRdm(norb: nat, orbs: seq<nat>): (m: Matrix)
    requires InRange(norb, orbs)
    ensures IsMatrix(m, norb, norb)
    ensures forall p, q :: 0 <= p < norb && 0 <= q < norb ==>
      m[p][q] == (if p == q then Indicator(p in orbs) else 0)
  {
    if |orbs| > 0 then SetDiagonal(ZeroMatrix(norb), norb, orbs) else ZeroMatrix(norb)
  }

  /** `slater_determinant_rdm(norb, (alpha, beta), rank=rank, spin_summed=...)` with no
      orbital rotation. Rank 1 gives the diagonal of occupation numbers, summed over spin
      (norb x norb) or spin-resolved with the alpha block first (2 norb x 2 norb); any other
      rank is refused. */
  function SlaterDeterminantRdm(norb: nat, alpha: seq<nat>, beta: seq<nat>,
                                rank: int, spinSummed: bool): (r: Result<Matrix, Failure>)
    requires InRange(norb, alpha) && InRange(norb, beta)
    ensures r.Err? <==> rank != 1
    ensures r.Err? ==> r.error == UnsupportedRank(rank)
    ensures r.Ok? && spinSummed ==> IsMatrix(r.value, norb, norb)
    ensures r.Ok? && spinSummed ==> forall p, q :: 0 <= p < norb && 0 <= q < norb ==>
      r.value[p][q] == (if p == q then Indicator(p in alpha) + Indicator(p in beta) else 0)
    ensures r.Ok? && !spinSummed ==> IsMatrix(r.value, 2 * norb, 2 * norb)
    ensures r.Ok? && !spinSummed ==> forall p, q :: 0 <= p < 2 * norb && 0 <= q < 2 * norb ==>
      r.value[p][q] == (if p == q then SpinOrbitalOccupation(norb, alpha, beta, p) else 0)
  {
    if rank == 1 then
      var rdmA := SectorRdm(norb, alpha);
      var rdmB := SectorRdm(norb, beta);
      if spinSummed then Ok(Add(rdmA, rdmB, norb)) else Ok(BlockDiag(rdmA, rdmB, norb))
    else
      Err(UnsupportedRank(rank))
  }

  /** For duplicate-free occupations the rank-1 density matrix has trace
      `len(alpha) + len(beta)`, summed over spin or not. */
  lemma RdmTrace(norb: nat, alpha: seq<nat>, beta: seq<nat>, spinSummed: bool)
    requires ValidSector(norb, alpha) && ValidSector(norb, beta)
    ensures var r := SlaterDeterminantRdm(norb, alpha, beta, 1, spinSummed);
      var n := if spinSummed then norb else 2 * norb;
      r.Ok? && IsMatrix(r.value, n, n) && Trace(r.value, n) == |alpha| + |beta|
  {
    var rdmA, rdmB := SectorRdm(norb, alpha), SectorRdm(norb, beta);
    SectorRdmTrace(norb, alpha);
    SectorRdmTrace(norb, beta);
    if spinSummed {
      TraceOfAdd(rdmA, rdmB, norb);
    } else {
      TraceOfBlockDiag(rdmA, rdmB, norb);
    }
  }

  /** A sector's density matrix has the occupation numbers on its diagonal, so for a
      duplicate-free list its trace is the number of listed orbitals. */
  lemma SectorRdmTrace(norb: nat, orbs: seq<nat>)
    requires ValidSector(norb, orbs)
    ensures Diagonal(SectorRdm(norb, orbs), norb) == OccupationNumbers(norb, orbs)
    ensures Trace(SectorRdm(norb, orbs), norb) == |orbs|
  {
    var d, o := Diagonal(SectorRdm(norb, orbs), norb), OccupationNumbers(norb, orbs);
    assert forall p :: 0 <= p < norb ==> d[p] == o[p];
    OccupationNumbersSum(norb, orbs);
  }
}

=== FILE: wrappers.dfy ===
/** Failure-carrying results for the operations that can raise. */
module Wrappers {

  /** Either a value or the error the original raises instead of returning one. */
  datatype Result<+T, +E> = Ok(value: T) | Err(error: E)

  /** The exceptions that the modelled operations raise. */
  datatype Failure =
    /** `int(text, 2)` rejects the text (empty, or a non-binary digit). */
    | InvalidBinaryLiteral(text: string)
    /** A numpy fancy index built from an empty list has a float dtype and is refused. */
    | NonIntegerIndexArray
    /** The requested reduced density matrix rank is not supported. */
    | UnsupportedRank(rank: int)
}
